=== FILE: README.md ===
# Project/task tracker core in Dafny

This project models the domain core of a Spring Boot project/task tracker. It covers:

- the `Project` aggregate, with its member set and task list;
- the project, task and user services, over an abstract database;
- the two bearer-token filters that turn an `Authorization: Bearer <token>` header into an identity in the security context;
- the service that reads the caller's id back from that identity;
- the route policy that decides which paths need an identity.

The model is functional. Each repository is a table from id to row, inside one immutable
`Store`. Each service operation is a pure function from a store to a `Result`. The result
is either the new store with the returned value, or the exception the Java code throws,
with the message it builds. Java `null` is `Option.None`.

Each service operation is one atomic transition. Concurrent requests become a sequence of
such transitions, served one after another (`ProjectService.AssignInOrder`). The source
does not guarantee this order. The project lock is a `@Transient` field of the entity
instance (`Project.java:81-82`). Each request loads its own instance
(`ProjectService.java:112`), so two requests on the same project never wait for each
other. Serial order is therefore an assumption of the model.

Files and modules:

| file | module | models |
|---|---|---|
| `java.dfy` | `Java` | nullable references, the exceptions thrown, `long` range, `startsWith`, `contains`, `List.remove` |
| `decimal.dfy` | `Decimal` | `String.valueOf(long)` and `Long.parseLong` |
| `users.dfy`, `tasks.dfy`, `projects.dfy` | `Users`, `Tasks`, `Projects` | the entities, `StateTask.valueOf`, the `Project` member/task operations |
| `store.dfy` | `Repositories` | the three repositories, `save`, and the database invariant `Valid` |
| `jwt.dfy` | `Jwt` | the token utility as an opaque codec, and `Authentication` |
| `user_service.dfy` | `UserService` | `saveUser`, `authenticate`, `findById`, `getUsersByIds` |
| `project_service.dfy` | `ProjectService` | `createProject`, `getProjectsByUser`, `assignUserToProject`, `getUsersByProject` |
| `task_service.dfy` | `TaskService` | `addTaskToProject`, `getAllTasksByProject`, `assignUserToTask`, `changeTaskState`, `mapToDto`, `mapToEntity` |
| `security_filter.dfy` | `SecurityJwtFilter` | `Security/JWTFilter` |
| `service_filter.dfy` | `ServiceJwtFilter` | `Service/JWTFilter` |
| `authentication_service.dfy` | `AuthenticationService` | `getAuthenticatedUserId` |
| `security_config.dfy` | `SecurityConfig` | the route policy of `filterChain` and one request through the chain |

`Valid(s)` is the database invariant that the lemmas assume and preserve. It says:

- generated ids are fresh;
- every row carries its own key as its id;
- every user row has a username, an email and a password (the non-null columns);
- emails and usernames are unique;
- every project's creator and members, and every task's project and assignee, are stored.

`User`, `Task` and `Project` do not override `equals`. Membership tests, `List.remove`
and `HashSet` de-duplication therefore compare references. The model compares users by
id, and tasks and projects by value. This assumes one managed instance per row, which is
what a single persistence context provides.

## Behaviour worth noting

- `Service/JWTFilter` reads a token's subject before it validates the token. An unparsable bearer token therefore makes the request fail instead of passing without an identity (`ServiceJwtFilter.DoFilter`, `ServiceJwtFilter.GatesCompared`). `Security/JWTFilter` validates first and parses afterwards, so an exception can still escape there (`SecurityJwtFilter.DoFilter`).
- The identity a gate places in the security context is the token's subject string, which may be null. It is not an integer. `getAuthenticatedUserId` parses it later. It throws when there is no identity, or when the name is not a decimal `long`. `Long.parseLong` also accepts non-canonical spellings such as `+5` and `007` (`Decimal.ParseLongPlus`, `Decimal.ParseLongLeadingZero`).
- `assignUserToProject` fails with an `IllegalArgumentException` both for an unknown project and for an existing member; only the message tells them apart. An unknown user is the `RuntimeException` from `findById`.
- Registration binds the request body straight to `User`, so username, email or password can arrive null. A null password makes BCrypt's `encode` throw. A null username or email is refused by the table's non-null columns.

## Model

| member | source | states |
|---|---|---|
| `Projects.AddMember` | src/main/java/com/example/project/Entity/Project.java:246-253 | members become old ∪ {user}; adding a present member returns the project unchanged; the size grows by one exactly when the user was absent; only `members` changes |
| `Projects.RemoveMember` | src/main/java/com/example/project/Entity/Project.java:260-267 | members become old \ {user}; removing a non-member changes nothing; only `members` changes |
| `Projects.AddTask` | src/main/java/com/example/project/Entity/Project.java:274-281 | the old list is a prefix of the new one, the task is appended at the end, and the length grows by exactly one even for a duplicate; only `taches` changes |
| `Projects.RemoveTask` | src/main/java/com/example/project/Entity/Project.java:288-295 | an absent task leaves the project unchanged; otherwise the first occurrence goes and the rest keep their order (length −1, multiset minus one copy); only `taches` changes |
| `Projects.MemberRoundTrip` | src/main/java/com/example/project/Entity/Project.java:246-267 | add-then-remove of a non-member, and remove-then-add of a member, both restore the project |
| `Projects.TaskRoundTrip` | src/main/java/com/example/project/Entity/Project.java:274-295 | add-then-remove keeps the multiset of tasks, and restores the exact list when the task was not already there |
| `Java.ListRemove` | src/main/java/com/example/project/Entity/Project.java:291 | `List.remove(Object)` drops the first occurrence, `s[..i] + s[i+1..]` at the first index of `x`, and otherwise returns the list as is |
| `Tasks.ValueOf` | src/main/java/com/example/project/Entity/Task.java:28-32 | a name parses exactly when it is the name of one of TO_DO, IN_PROGRESS, DONE; any other string is an IllegalArgumentException naming the enum and the string |
| `Tasks.ValueOfName` | src/main/java/com/example/project/Service/TaskServiceImpl.java:169-171 | `valueOf` inverts `name()` (`Tasks.Name`) on every constant, so distinct states have distinct names |
| `Decimal.ParseToString` | src/main/java/com/example/project/Service/JWTUtil.java:24 | `Long.parseLong(String.valueOf(x)) == x` for every `long` x; the rendering of an out-of-range value does not parse |
| `Decimal.ToStringParse` | src/main/java/com/example/project/Service/AuthenticationService.java:22 | a canonical decimal string that parses is exactly the rendering of its value |
| `Decimal.ToString` | src/main/java/com/example/project/Service/JWTUtil.java:24 | `String.valueOf(long)` writes at least one character, and a leading minus exactly for a negative value |
| `Decimal.ParseLong` | src/main/java/com/example/project/Service/AuthenticationService.java:22 | a parsed value is always in the `long` range; every failure is a NumberFormatException carrying the input string |
| `Decimal.ParseLongRejects` | src/main/java/com/example/project/Service/AuthenticationService.java:22 | the empty string, a lone sign, a leading character that is neither sign nor digit, and any later non-digit are all refused |
| `Decimal.ParseLongDigits` | src/main/java/com/example/project/Service/AuthenticationService.java:22 | a plain digit string parses exactly when its value is at most 2^63−1, and parses to that value |
| `Decimal.ParseLongPlus` | src/main/java/com/example/project/Service/AuthenticationService.java:22 | a leading `+` is accepted and ignored |
| `Decimal.ParseLongLeadingZero` | src/main/java/com/example/project/Service/AuthenticationService.java:22 | a leading zero is accepted and ignored |
| `Decimal.ParseLongMinus` | src/main/java/com/example/project/Service/AuthenticationService.java:22 | a leading `-` negates, and parses exactly when the magnitude is at most 2^63 |
| `Decimal.ToStringCanonical` | src/main/java/com/example/project/Service/JWTUtil.java:24 | `String.valueOf(long)` never writes a `+`, a leading zero or `-0` |
| `Jwt.SubjectOf` | src/main/java/com/example/project/Service/JWTUtil.java:22-24 | the subject written for a `long` id is a canonical decimal string that `Long.parseLong` reads back as that id; the subject written for a null id does not parse |
| `Jwt.SubjectsDistinct` | src/main/java/com/example/project/Service/JWTUtil.java:22-24 | distinct ids are written as distinct subjects |
| `Jwt.IssuedTokenNamesUser` | src/main/java/com/example/project/Service/JWTUtil.java:22-29 | for a codec that reads back the subject it signed, the subject of the token `generateToken` (`Jwt.GenerateToken`) issues for a `long` id parses to that id, and tokens for different ids differ |
| `Repositories.SaveProject` | src/main/java/com/example/project/Service/ProjectService.java:126 | `save` returns the project with an id (its own if it had one, a fresh one otherwise), writes exactly that row, and touches no other table |
| `Repositories.SaveTask` | src/main/java/com/example/project/Service/TaskServiceImpl.java:73 | the same guarantees for a task |
| `Repositories.SaveUser` | src/main/java/com/example/project/Entity/User.java:25-38 | a write fails with a data integrity violation exactly when the username, email or password is null or another row already has the email or username; a new row changes nothing else; saving over an existing user row also deletes every project that user created and every task of those projects (the merged entity's `createdProjects` arrives empty and cascades with orphan removal, User.java:49-50), and nothing else |
| `Repositories.DropCreated` | src/main/java/com/example/project/Entity/User.java:49-50 | the effect of that merge: exactly the projects not created by the user remain, and exactly the tasks not belonging to a dropped project, each unchanged; users and the id counters are untouched |
| `Repositories.DropCreatedKeepsValid` | src/main/java/com/example/project/Entity/Project.java:75-76 | the deletion keeps the invariant: every remaining task still belongs to a remaining project |
| `Repositories.SaveUserKeepsValid` | src/main/java/com/example/project/Entity/User.java:25-38 | whether it inserts, updates or is refused, saving a user keeps the invariant |
| `UserService.SaveUser` | src/main/java/com/example/project/Service/UserService.java:43-46 | a null password is BCrypt's IllegalArgumentException before anything is written; otherwise it fails exactly when the username or email is null or already taken by another row; on success the stored user is the given one with `encode(password)` in place of its password and every other field kept (the id filled in if null), and it is what a lookup of its id returns; no other user row changes; a new id leaves projects and tasks alone, while re-registering an existing id leaves exactly the projects and tasks `Repositories.DropCreated` keeps |
| `UserService.RegisterThenLogin` | src/main/java/com/example/project/Service/UserService.java:43-74 | after a successful registration, `findById` returns the saved user, and logging in with its email and raw password yields the token for its new id |
| `UserService.Authenticate` | src/main/java/com/example/project/Service/UserService.java:57-74 | unknown email gives "Utilisateur non trouvé"; with the single matching user, success happens exactly when `matches` holds (a null stored hash never matches), and a mismatch gives "Mot de passe incorrect"; a token is only ever `generateToken` of a user with that email whose password matched |
| `UserService.AuthenticateNeverAmbiguous` | src/main/java/com/example/project/Repository/UserRepository.java:20 | in a valid database the single-result `findByEmail` never sees two rows |
| `UserService.FindById` | src/main/java/com/example/project/Service/UserService.java:83-86 | success exactly for a stored id, returning that row; otherwise a RuntimeException whose message contains the id |
| `UserService.GetUsersByIds` | src/main/java/com/example/project/Service/UserService.java:94-97 | exactly the stored users whose ids are listed, each once, as stored |
| `UserService.UsersByIdsBounded` | src/main/java/com/example/project/Service/UserService.java:94-97 | the lookup never returns more users than ids were given |
| `ProjectService.CreateProject` | src/main/java/com/example/project/Service/ProjectService.java:47-62 | fails exactly when the creator is unknown, with `findById`'s error; otherwise the saved project is TO_DO, dated `today`, created by that user, named and described as the request, with members exactly {creator} and no tasks; it gets a fresh row and nothing else changes |
| `ProjectService.CreatedProjectValidity` | src/main/java/com/example/project/Entity/Project.java:31-40 | the created project meets the field constraints (`Projects.ValidProject`: a name of 3 to 50 characters, a description of at most 500, both non-null) exactly when the request's name and description do |
| `ProjectService.CreateProjectKeepsValid` | src/main/java/com/example/project/Service/ProjectService.java:47-62 | creation keeps the invariant and adds exactly one project row |
| `ProjectService.GetProjectsByUser` | src/main/java/com/example/project/Service/ProjectService.java:72-81 | fails exactly for an unknown user; otherwise the result holds each project the user created or is a member of, once, and no other |
| `ProjectService.AssignUserToProject` | src/main/java/com/example/project/Service/ProjectService.java:111-130 | error order: unknown project ("Project not found") before the user lookup, then unknown user, then "User is already assigned to the project"; succeeds exactly otherwise, with members ∪ {user}, every other field kept, and only that project row rewritten |
| `ProjectService.AssignKeepsValid` | src/main/java/com/example/project/Service/ProjectService.java:111-130 | a successful assignment keeps the invariant |
| `ProjectService.SecondAssignFails` | src/main/java/com/example/project/Service/ProjectService.java:119-126 | assigning the same user to the same project twice in a row, the second attempt is refused as already assigned |
| `ProjectService.GetUsersByProject` | src/main/java/com/example/project/Service/ProjectService.java:140-151 | "Project not found" exactly for an unknown project; otherwise the views of exactly the project's members |
| `ProjectService.AssignedUserIsVisible` | src/main/java/com/example/project/Service/ProjectService.java:72-151 | after an assignment the user is among the project's users and the project among the user's projects |
| `ProjectService.AssignInOrder` | src/main/java/com/example/project/Service/ProjectService.java:111-130 | requests served one after another give one outcome per request, never touch users or tasks, and each success reports a project that has the requested user as a member |
| `ProjectService.AssignInOrderKeepsValid` | src/main/java/com/example/project/Service/ProjectService.java:117-129 | any sequence of assignment requests served one after another keeps the invariant |
| `ProjectService.IdenticalAssignsOneWins` | src/main/java/com/example/project/Service/ProjectService.java:117-129 | K identical requests for a non-member: the first succeeds, all the others are refused as already assigned, and the user is added once |
| `ProjectService.AlreadyMemberAllRefused` | src/main/java/com/example/project/Service/ProjectService.java:121-123 | requests for a user who is already a member are all refused and leave the store as it was |
| `ProjectService.AssignInOrderMembers` | src/main/java/com/example/project/Service/ProjectService.java:117-129 | no lost update: in any order, the final member set is the old one plus every requested stored user |
| `ProjectService.DistinctAssignsAllOk` | src/main/java/com/example/project/Service/ProjectService.java:117-129 | K requests for K distinct stored non-members all succeed |
| `ProjectService.DistinctAssignsAllSucceed` | src/main/java/com/example/project/Service/ProjectService.java:117-129 | those K requests grow the member set by exactly K and keep the invariant |
| `TaskService.MapToDto` | src/main/java/com/example/project/Service/TaskServiceImpl.java:164-179 | id, description and due date copied; the state name present exactly when a state is, and parsing back to it; userId and projectId are the assignee's and project's ids, or null |
| `TaskService.MapToEntity` | src/main/java/com/example/project/Service/TaskServiceImpl.java:187-196 | fails exactly when a non-null state name is not a constant, with `valueOf`'s exception; otherwise copies id, description, due date, a state whose name is the given one, and no assignee or project |
| `TaskService.EntityRoundTrip` | src/main/java/com/example/project/Service/TaskServiceImpl.java:164-196 | entity → DTO → entity gives the entity back, without assignee and project |
| `TaskService.DtoRoundTrip` | src/main/java/com/example/project/Service/TaskServiceImpl.java:164-196 | a DTO with an accepted state goes to an entity and back unchanged apart from userId and projectId |
| `TaskService.AddTaskToProject` | src/main/java/com/example/project/Service/TaskServiceImpl.java:54-78 | error order: unknown project, bad state name, unknown assignee; succeeds exactly otherwise; the saved task belongs to the project, has the given state or TO_DO, the given assignee or none, and the DTO's id if any; the returned DTO is what the stored row maps to; the task keys gain exactly that id, and no other row changes |
| `TaskService.AddTaskKeepsValid` | src/main/java/com/example/project/Service/TaskServiceImpl.java:54-78 | adding a task keeps the invariant, and a task without an id gets a new row |
| `TaskService.GetAllTasksByProject` | src/main/java/com/example/project/Service/TaskServiceImpl.java:88-97 | fails exactly for an unknown project; otherwise lists exactly the tasks whose project is that one, each as the DTO its stored row maps to, showing that project id and its own id |
| `TaskService.AddedTaskIsListed` | src/main/java/com/example/project/Service/TaskServiceImpl.java:54-97 | a task just added appears in its project's list exactly as it was returned |
| `TaskService.AssignUserToTask` | src/main/java/com/example/project/Service/TaskServiceImpl.java:110-125 | unknown task fails before the user lookup, then unknown user; succeeds exactly otherwise, replacing the assignee whatever it was, and only that task row changes |
| `TaskService.AssignUserToTaskKeepsValid` | src/main/java/com/example/project/Service/TaskServiceImpl.java:110-125 | assigning keeps the invariant |
| `TaskService.LastAssignmentWins` | src/main/java/com/example/project/Service/TaskServiceImpl.java:117-121 | two assignments in a row leave the store the second alone would, and re-assigning the same user changes nothing |
| `TaskService.ChangeTaskState` | src/main/java/com/example/project/Service/TaskServiceImpl.java:136-156 | unknown task first; a null name throws NullPointerException; an unknown name gives "Invalid state: <name>"; succeeds exactly for TO_DO, IN_PROGRESS, DONE, setting that state and changing nothing else |
| `TaskService.ChangeTaskStateIdempotent` | src/main/java/com/example/project/Service/TaskServiceImpl.java:136-156 | a state change keeps the invariant and repeating it changes nothing |
| `TaskService.ChangeTaskStateRoundTrip` | src/main/java/com/example/project/Service/TaskServiceImpl.java:136-156 | changing the state and changing it back restores the original store |
| `SecurityJwtFilter.ExtractToken` | src/main/java/com/example/project/Security/JWTFilter.java:48-54 | a token exactly when the header is present and starts with the case-sensitive "Bearer ", and then the header is "Bearer " followed by the token |
| `SecurityJwtFilter.ExtractTokenRoundTrip` | src/main/java/com/example/project/Security/JWTFilter.java:48-54 | whatever follows "Bearer " comes back exactly |
| `SecurityJwtFilter.DoFilter` | src/main/java/com/example/project/Security/JWTFilter.java:33-46 | no token, or a token that does not validate, continues with the context unchanged; an identity change only ever installs the validated token's subject with no authorities; the only failure is a validated token that then does not parse |
| `SecurityJwtFilter.GateNeverRejects` | src/main/java/com/example/project/Security/JWTFilter.java:33-46 | the gate never refuses a request itself, and a valid token always replaces the identity |
| `ServiceJwtFilter.DoFilter` | src/main/java/com/example/project/Service/JWTFilter.java:25-56 | it fails exactly when a bearer token does not parse (the subject is read before validation); an existing identity is never replaced; a new identity is set exactly when the subject is non-null, the context empty and the token valid, and carries ROLE_USER |
| `ServiceJwtFilter.GatesCompared` | src/main/java/com/example/project/Service/JWTFilter.java:33-44 | with a separate codec for each gate: a token this gate's codec cannot parse makes it fail, even a login token the security gate validates and installs; a token the security gate does not validate passes it unchanged; only when both codecs accept a token and read the same subject do both install that principal, with different authorities, and only this gate keeps an existing identity |
| `AuthenticationService.GetAuthenticatedUserId` | src/main/java/com/example/project/Service/AuthenticationService.java:18-25 | no identity is a NullPointerException; otherwise the outcome is `Long.parseLong` of the principal's name ("" for a null principal), so a name it refuses is a NumberFormatException naming that string; a result is a `long` whose rendering is the name whenever the name is canonical |
| `AuthenticationService.SubjectRoundTrip` | src/main/java/com/example/project/Service/AuthenticationService.java:18-25 | an identity named with the subject written for `long` id k yields k; the subject of a null id yields a NumberFormatException |
| `SecurityConfig.HandleRequest` | src/main/java/com/example/project/Security/SecurityConfig.java:21-40 | rejected exactly when the path is not open and the gate set no identity; a granted identity always comes from the request's own bearer token, validated, with its subject |
| `SecurityConfig.ProtectedPathsNeedAToken` | src/main/java/com/example/project/Security/SecurityConfig.java:25-28 | on a protected path, no credential or an invalid token is rejected; on an open path nothing is rejected |
| `SecurityConfig.RoutePolicyExamples` | src/main/java/com/example/project/Security/SecurityConfig.java:26-27 | login, registration and the console tree are open; other paths, including near misses, are not |
| `SecurityConfig.LoginThenRequest` | src/main/java/com/example/project/Service/UserService.java:65-67 | end to end, with one codec for the token utility that login, the security gate and `AuthenticationService` share: login returns the token for the user's id; sent back as a bearer credential it is granted on any path with the id's decimal subject; the service reads that id back |

## Left out

- Concurrency: the model assumes requests are served one after another, each service operation one atomic transition. The source does not guarantee this. `Project`'s lock is per instance and each request loads its own instance. `Task` defines no `lockTask`/`unlockTask`, and `changeTaskState` takes no lock. Interleaved requests, lost updates between them, deadlock and fairness are not modelled.
- JWT internals (HS256 signing, the random key, JWS parsing, expiry against the wall clock): `Codec.sign`, `validate` and `extract` are opaque functions fixed for one instant. The end-to-end lemma assumes only that a token the codec signed validates and carries its subject.
- BCrypt: `encode` and `matches` are opaque functions of `PasswordEncoder`.
- `LocalDate.now()` in `createProject` is the parameter `today`.
- Controllers, the DTO classes' HTTP marshalling, and the status mapping in the controllers are not modelled. `getProjectsByUser`'s mapping to `ProjectDTO` is not modelled either: the result is the projects themselves.
- The unwired root-package duplicates (`Project`, `Task`, `UserController`, `UserService`, `AuthController`, `SecurityConfig`, `UserRepository` directly under `com/example/project`) are not modelled.
- Logging in `validateToken` has no effect and is not modelled.
- Result order of list queries (`findByCreator`, `findByMembersContains`, `findByProjectId`, `findAllById`) is not modelled. Results are maps keyed by id.
- `UserService.GetUsersByIds`: a repeated id is returned once. The model does not say in what order users come back.
- Bean validation (`@NotNull`, `@Size`) is not enforced by `save` in the model. `CreatedProjectValidity` states when a created project would pass it.
- `Repositories.SaveTask`, `Repositories.SaveProject` and `Repositories.SaveUser` write a client-supplied id as an upsert at that id. Hibernate's merge of a detached entity whose id is not in the table is not modelled in more detail. For users, the cascade that merging over an existing row triggers is modelled (`Repositories.DropCreated`). The other associations of the incoming user (`projets`, `taches`) are inverse sides without cascade and change nothing.
- `Decimal.ParseLong` accepts ASCII digits only. `Long.parseLong` also accepts other Unicode decimal digits.
- Ids are unbounded integers. The end-to-end and round-trip lemmas require the id to be in the `long` range.
- Path arguments (`projectId`, `taskId`, `userId`) are never null in the model: they come from URL path variables.
- `UserService.Authenticate`: the login email and password are never null in the model. A null email finds no row (the column is non-null). A null password would make BCrypt's `matches` throw instead of failing with "Mot de passe incorrect".
- `Project.state` and `Project.dateCreation` are never null in the model. Both are nullable in Java, but no modelled operation writes a null into them.
- Reference identity: tasks and projects are compared by value. `List.remove` on a list holding two distinct but equal tasks removes the first equal one in the model, where Java removes the one with the given reference. `HashSet` de-duplication in `getProjectsByUser` is by reference in Java and by id in the model.
- The session-creation policy and the frame-options and CSRF settings are not modelled beyond "every request starts with an empty security context".
- `Service/JWTFilter` is modelled on its own. Its place in the running filter chain is not modelled: the security chain registers only `Security/JWTFilter`, and both classes are components with the same simple name.
- `Security/JWTUtil` is not part of this model. `UserService` (which issues the login token), `AuthenticationService` and `Security/JWTFilter` (same package) all use it. Its codec is the opaque `Codec` of `SecurityConfig.HandleRequest` and `SecurityConfig.LoginThenRequest`. That it writes the subject as `String.valueOf(userId)`, as `Jwt.GenerateToken` does, is an assumption taken from `Service/JWTUtil.generateToken`, the only token utility whose source is available.
- `Service/JWTFilter` verifies with `Service/JWTUtil`, whose key is generated afresh (`Service/JWTUtil.java:14`), so it does not share a codec with the security gate. `ServiceJwtFilter.GatesCompared` therefore takes two codecs. Its shared-subject case is a hypothetical comparison, not something the running system meets.
- `SecurityConfig.HandleRequest`: the anonymous-authentication filter, which Spring Security leaves on by default, is abstracted away. An open path reached without a token is granted with an empty context in the model, where Spring would hold an anonymous authentication token. `getAuthenticatedUserId` is only reached from protected routes, where such a request is rejected first.
- Spring Security's handling of a rejected request (entry point and status code) is not modelled. A rejection is just `Rejected`.

=== FILE: authentication_service.dfy ===
/** `AuthenticationService.getAuthenticatedUserId`: the id of the caller, read back from
    the name of the identity the gate placed in the security context. */
module AuthenticationService {
  import opened Java
  import Decimal
  import opened Jwt

  /** The principal's name parsed as a decimal `long`. With no identity in the context the
      call dereferences null; a name that is not a decimal `long` (including the empty name
      of a null principal) is a NumberFormatException naming that string. */
  function GetAuthenticatedUserId(ctx: Option<Authentication>): (r: Result<int>)
    ensures ctx.None? ==> r == Err(NullPointer)
    ensures ctx.Some? ==> r == Decimal.ParseLong(Name(ctx.value))
    ensures r.Ok? ==> ctx.Some? && IsLong(r.value)
    ensures ctx.Some? && r.Err? ==> r.error == NumberFormat(Name(ctx.value))
    ensures ctx.Some? && ctx.value.principal.None? ==> r == Err(NumberFormat(""))
    ensures r.Ok? && Decimal.Canonical(Name(ctx.value)) ==> Decimal.ToString(r.value) == Name(ctx.value)
  {
    match ctx
    case None => Err(NullPointer)
    case Some(a) =>
      var parsed := Decimal.ParseLong(Name(a));
      if parsed.Ok? && Decimal.Canonical(Name(a)) then
        Decimal.ToStringParse(Name(a));
        parsed
      else parsed
  }

  /** Round trip with token issuance: an identity whose name is the subject written for a
      `long` id yields that id back, whatever its authorities; the subject written for a
      null id ("null") never parses. */
  lemma SubjectRoundTrip(userId: Option<int>, authorities: seq<string>)
    ensures userId.Some? && IsLong(userId.value) ==>
              GetAuthenticatedUserId(Some(Authentication(Some(SubjectOf(userId)), authorities))) == Ok(userId.value)
    ensures userId.None? ==>
              GetAuthenticatedUserId(Some(Authentication(Some(SubjectOf(userId)), authorities))) == Err(NumberFormat("null"))
  {
    if userId.Some? {
      Decimal.ParseToString(userId.value);
    } else {
      assert !Decimal.IsDigit('n');
    }
  }
}

=== FILE: decimal.dfy ===
/** Decimal rendering and parsing of `long` values: `String.valueOf(long)` (also what
    string concatenation `"..." + id` produces) and `Long.parseLong(String)`.
    The token subject is written with the first and read back with the second. */
module Decimal {
  import opened Java

  predicate IsDigit(c: char) {
    '0' <= c <= '9'
  }

  predicate AllDigits(s: string) {
    forall i :: 0 <= i < |s| ==> IsDigit(s[i])
  }

  function DigitChar(d: int): (c: char)
    requires 0 <= d < 10
    ensures IsDigit(c)
  {
    (('0' as int) + d) as char
  }

  function DigitValue(c: char): (d: int)
    requires IsDigit(c)
    ensures 0 <= d < 10
  {
    (c as int) - ('0' as int)
  }

  /** The decimal digits of `n`, most significant first, without leading zeros. */
  function Digits(n: nat): (s: string)
    ensures |s| >= 1
    ensures AllDigits(s)
    ensures s[0] == '0' <==> n == 0
  {
    if n < 10 then [DigitChar(n)] else Digits(n / 10) + [DigitChar(n % 10)]
  }

  /** `String.valueOf(long)`: an optional minus sign followed by the digits of the magnitude. */
  function ToString(x: int): (s: string)
    ensures |s| >= 1 && (s[0] == '-' <==> x < 0)
  {
    if x < 0 then "-" + Digits(-x) else Digits(x)
  }

  /** The number a string of decimal digits denotes (leading zeros allowed). */
  function DigitsValue(s: string): nat
    requires AllDigits(s)
  {
    if |s| == 0 then 0 else 10 * DigitsValue(s[..|s| - 1]) + DigitValue(s[|s| - 1])
  }

  /** `Long.parseLong(s)` with radix 10: an optional `-` or `+`, then at least one digit,
      and the value must fit in a `long`; anything else is a NumberFormatException. */
  function ParseLong(s: string): (r: Result<int>)
    ensures r.Ok? ==> IsLong(r.value)
    ensures r.Err? ==> r.error == NumberFormat(s)
  {
    if |s| == 0 then Err(NumberFormat(s))
    else
      var negative := s[0] == '-';
      var body := if s[0] == '-' || s[0] == '+' then s[1..] else s;
      if |body| == 0 || !AllDigits(body) then Err(NumberFormat(s))
      else
        var magnitude: int := DigitsValue(body);
        if negative then
          (if magnitude <= -MinLong then Ok(-magnitude) else Err(NumberFormat(s)))
        else
          (if magnitude <= MaxLong then Ok(magnitude) else Err(NumberFormat(s)))
  }

  /** The inputs `Long.parseLong` refuses whatever their value: the empty string, a lone
      sign, a leading character that is neither a sign nor a digit, and any non-digit after
      the first position. */
  lemma ParseLongRejects(s: string)
    ensures s == "" || s == "-" || s == "+" ==> ParseLong(s) == Err(NumberFormat(s))
    ensures |s| > 0 && s[0] != '-' && s[0] != '+' && !IsDigit(s[0]) ==> ParseLong(s) == Err(NumberFormat(s))
    ensures (exists i :: 1 <= i < |s| && !IsDigit(s[i])) ==> ParseLong(s) == Err(NumberFormat(s))
  {
    if exists i :: 1 <= i < |s| && !IsDigit(s[i]) {
      var i :| 1 <= i < |s| && !IsDigit(s[i]);
      var body := if s[0] == '-' || s[0] == '+' then s[1..] else s;
      assert !IsDigit(body[i - (|s| - |body|)]);
    }
  }

  /** A leading zero does not change the number a digit string denotes. */
  lemma {:induction false} DigitsValueLeadingZero(d: string)
    requires AllDigits(d)
    ensures DigitsValue("0" + d) == DigitsValue(d)
  {
    if |d| > 0 {
      var z := "0" + d;
      assert z[..|z| - 1] == "0" + d[..|d| - 1];
      DigitsValueLeadingZero(d[..|d| - 1]);
    }
  }

  /** A plain digit string parses exactly when its value fits in a `long`. */
  lemma ParseLongDigits(d: string)
    requires |d| > 0 && AllDigits(d)
    ensures ParseLong(d).Ok? <==> DigitsValue(d) <= MaxLong
    ensures ParseLong(d).Ok? ==> ParseLong(d).value == DigitsValue(d)
  {
    assert IsDigit(d[0]);
  }

  /** Non-canonical spellings `Long.parseLong` accepts: a `+` sign is ignored (only the
      exception's message, which repeats the input, tells the two apart). */
  lemma ParseLongPlus(d: string)
    requires |d| > 0 && AllDigits(d)
    ensures ParseLong("+" + d).Ok? <==> ParseLong(d).Ok?
    ensures ParseLong(d).Ok? ==> ParseLong("+" + d) == ParseLong(d)
  {
    var s := "+" + d;
    assert s[0] == '+' && s[1..] == d;
    assert IsDigit(d[0]);
  }

  /** Leading zeros are ignored too. */
  lemma ParseLongLeadingZero(d: string)
    requires |d| > 0 && AllDigits(d)
    ensures ParseLong("0" + d).Ok? <==> ParseLong(d).Ok?
    ensures ParseLong(d).Ok? ==> ParseLong("0" + d) == ParseLong(d)
  {
    var s := "0" + d;
    assert AllDigits(s) by {
      forall i | 0 <= i < |s|
        ensures IsDigit(s[i])
      {
        if i > 0 {
          assert s[i] == d[i - 1];
        }
      }
    }
    assert IsDigit(d[0]);
    DigitsValueLeadingZero(d);
  }

  /** A `-` negates the digits' value, as long as the result fits in a `long`. */
  lemma ParseLongMinus(d: string)
    requires |d| > 0 && AllDigits(d)
    ensures ParseLong("-" + d).Ok? <==> DigitsValue(d) <= -MinLong
    ensures ParseLong("-" + d).Ok? ==> ParseLong("-" + d).value == -(DigitsValue(d) as int)
  {
    var s := "-" + d;
    assert s[0] == '-' && s[1..] == d;
  }

  /** The strings `String.valueOf(long)` can produce: no `+`, no leading zero, no `-0`. */
  predicate Canonical(s: string) {
    if |s| > 0 && s[0] == '-' then
      |s| > 1 && AllDigits(s[1..]) && s[1] != '0'
    else
      |s| > 0 && AllDigits(s) && (s[0] == '0' ==> |s| == 1)
  }

  lemma {:induction false} DigitsValueOfDigits(n: nat)
    ensures DigitsValue(Digits(n)) == n
  {
    if n >= 10 {
      var s := Digits(n);
      assert s[..|s| - 1] == Digits(n / 10);
      DigitsValueOfDigits(n / 10);
    }
  }

  /** A digit string with no leading zero starting with a non-zero digit denotes at least 1. */
  lemma {:induction false} DigitsValuePositive(s: string)
    requires |s| > 0 && AllDigits(s) && s[0] != '0'
    ensures DigitsValue(s) >= 1
  {
    if |s| > 1 {
      DigitsValuePositive(s[..|s| - 1]);
    }
  }

  lemma {:induction false} DigitsOfDigitsValue(s: string)
    requires |s| > 0 && AllDigits(s) && (s[0] == '0' ==> |s| == 1)
    ensures Digits(DigitsValue(s)) == s
  {
    if |s| > 1 {
      var p := s[..|s| - 1];
      DigitsValuePositive(p);
      DigitsOfDigitsValue(p);
      var n := DigitsValue(s);
      assert n / 10 == DigitsValue(p) && n % 10 == DigitValue(s[|s| - 1]);
      assert s == p + [s[|s| - 1]];
    }
  }

  /** What `String.valueOf(long)` writes is always canonical. */
  lemma ToStringCanonical(x: int)
    ensures Canonical(ToString(x))
  {
    if x < 0 {
      assert ToString(x)[1..] == Digits(-x);
    }
  }

  /** Round trip: `Long.parseLong(String.valueOf(x)) == x` for every `long` x, and the
      rendering of a value outside the `long` range does not parse. */
  lemma {:induction false} ParseToString(x: int)
    ensures IsLong(x) ==> ParseLong(ToString(x)) == Ok(x)
    ensures !IsLong(x) ==> ParseLong(ToString(x)).Err?
  {
    var s := ToString(x);
    if x < 0 {
      assert s[0] == '-' && s[1..] == Digits(-x);
      DigitsValueOfDigits(-x);
    } else {
      DigitsValueOfDigits(x);
    }
  }

  /** The other direction: a canonical string that parses is exactly the rendering of its value. */
  lemma {:induction false} ToStringParse(s: string)
    requires Canonical(s)
    requires ParseLong(s).Ok?
    ensures ToString(ParseLong(s).value) == s
  {
    if s[0] == '-' {
      var body := s[1..];
      DigitsValuePositive(body);
      DigitsOfDigitsValue(body);
      assert s == "-" + body;
    } else {
      DigitsOfDigitsValue(s);
    }
  }
}

=== FILE: java.dfy ===
/** The few Java-level notions the tracker's code relies on: nullable references,
    the exceptions its services throw, the 64-bit range of `Long`, and the
    case-sensitive prefix test of `String.startsWith`. */
module Java {

  /** A nullable reference: `None` stands for Java's `null`. */
  datatype Option<+T> = None | Some(value: T) {
    function GetOr(default: T): T {
      match this
      case Some(v) => v
      case None => default
    }
  }

  /** The exceptions that can leave the modelled operations, with the message
      the source builds where the source builds one. */
  datatype Exception =
    | IllegalArgument(message: string)        // java.lang.IllegalArgumentException
    | Runtime(message: string)                // java.lang.RuntimeException
    | ProjectNotFound(message: string)        // TaskServiceImpl.ProjectNotFoundException
    | UserNotFound(message: string)           // TaskServiceImpl.UserNotFoundException
    | TaskNotFound(message: string)           // TaskServiceImpl.TaskNotFoundException
    | NumberFormat(input: string)             // java.lang.NumberFormatException from Long.parseLong
    | NullPointer                             // java.lang.NullPointerException
    | JwtFailure                              // io.jsonwebtoken.JwtException raised while parsing a token
    | IncorrectResultSize                     // Spring Data: a single-result query matched several rows
    | DataIntegrityViolation                  // a unique column constraint rejected the write

  /** Either a returned value or a thrown exception. */
  datatype Result<+T> = Ok(value: T) | Err(error: Exception)

  /** A `java.time.LocalDate`, as a day number. */
  type Date = int

  const MinLong: int := -0x8000_0000_0000_0000
  const MaxLong: int := 0x7FFF_FFFF_FFFF_FFFF

  /** The values a Java `long` can hold. */
  predicate IsLong(x: int) {
    MinLong <= x <= MaxLong
  }

  /** A non-empty set has an element. */
  lemma NonEmptyHasElement(a: set<int>)
    requires a != {}
    ensures exists x :: x in a
  {
    if forall x :: x !in a {
      assert false;
    }
  }

  /** `s.startsWith(prefix)`: exact, case-sensitive comparison of the first characters. */
  predicate StartsWith(s: string, prefix: string) {
    |prefix| <= |s| && s[..|prefix|] == prefix
  }

  /** `s.contains(part)` */
  predicate Contains(s: string, part: string) {
    exists i :: 0 <= i <= |s| - |part| && OccursAt(s, part, i)
  }

  predicate OccursAt(s: string, part: string, i: int)
    requires 0 <= i <= |s| - |part|
  {
    s[i..i + |part|] == part
  }

  /** A string built as `prefix + middle + suffix` contains `middle`. */
  lemma ContainsMiddle(prefix: string, middle: string, suffix: string)
    ensures Contains(prefix + middle + suffix, middle)
  {
    var s := prefix + middle + suffix;
    assert OccursAt(s, middle, |prefix|);
  }

  /** `List.indexOf(Object)` for an element that is present: the position of its first occurrence. */
  function IndexOf<T(==)>(s: seq<T>, x: T): (i: nat)
    requires x in s
    ensures i < |s| && s[i] == x
    ensures x !in s[..i]
  {
    if s[0] == x then 0
    else
      assert s[1..][IndexOf(s[1..], x)] == x;
      assert s[..IndexOf(s[1..], x) + 1] == [s[0]] + s[1..][..IndexOf(s[1..], x)];
      IndexOf(s[1..], x) + 1
  }

  /** `List.remove(Object)`: drop the first element equal to `x`, if there is one. */
  function ListRemove<T(==)>(s: seq<T>, x: T): (r: seq<T>)
    ensures x !in s ==> r == s
    ensures x in s ==> |r| == |s| - 1 && r == s[..IndexOf(s, x)] + s[IndexOf(s, x) + 1..]
    ensures multiset(r) == multiset(s) - multiset{x}
  {
    if x in s then
      var i := IndexOf(s, x);
      assert s == s[..i] + [s[i]] + s[i + 1..];
      s[..i] + s[i + 1..]
    else s
  }
}

=== FILE: jwt.dfy ===
/** The token utility as the rest of the system sees it, and the identity a filter places
    in the request's security context. Signing, the random key, JWS parsing and the expiry
    check against the clock are opaque: a `Codec` bundles the three operations as plain
    functions fixed for one process and one instant. A codec stands for one token utility
    with its own key; the subject written by `GenerateToken` follows `Service/JWTUtil`. */
module Jwt {
  import opened Java
  import Decimal

  /** What `extractUserId` does with a token: it returns the token's subject claim (which may
      be absent, i.e. null) or throws because the token does not parse or verify. */
  datatype Extraction = Extracted(subject: Option<string>) | ParseFailure

  datatype Codec = Codec(
    sign: string -> string,          // generateToken, given the subject it writes
    validate: string -> bool,        // validateToken: signature verifies and not expired
    extract: string -> Extraction)   // extractUserId

  /** The subject `generateToken(userId)` writes: `String.valueOf(userId)`, which is the
      decimal rendering of the id, or "null" for a null id. A `long` id's subject is the
      canonical decimal string that `Long.parseLong` reads back as that id; the subject of a
      null id does not parse at all. */
  function SubjectOf(userId: Option<int>): (subject: string)
    ensures userId.Some? && IsLong(userId.value) ==>
              Decimal.ParseLong(subject) == Ok(userId.value) && Decimal.Canonical(subject)
    ensures userId.None? ==> Decimal.ParseLong(subject) == Err(NumberFormat(subject))
  {
    match userId
    case Some(id) =>
      Decimal.ParseToString(id);
      Decimal.ToStringCanonical(id);
      Decimal.ToString(id)
    case None =>
      assert !Decimal.IsDigit('n');
      "null"
  }

  /** Distinct `long` ids are written as distinct subjects. */
  lemma SubjectsDistinct(a: int, b: int)
    requires IsLong(a) && IsLong(b) && a != b
    ensures SubjectOf(Some(a)) != SubjectOf(Some(b))
  {
  }

  /** `generateToken(userId)`: the token signed for the id's subject. */
  function GenerateToken(c: Codec, userId: Option<int>): string {
    c.sign(SubjectOf(userId))
  }

  /** The codec reads back the subject it wrote into a token. */
  predicate CarriesSubject(c: Codec, token: string, subject: string) {
    c.extract(token) == Extracted(Some(subject))
  }

  /** A token issued for a `long` id, read back by a codec that keeps the subject it
      signed, names that id, and tokens issued for two different ids differ. */
  lemma IssuedTokenNamesUser(c: Codec, a: int, b: int)
    requires IsLong(a) && IsLong(b)
    requires CarriesSubject(c, GenerateToken(c, Some(a)), SubjectOf(Some(a)))
    requires CarriesSubject(c, GenerateToken(c, Some(b)), SubjectOf(Some(b)))
    ensures Decimal.ParseLong(c.extract(GenerateToken(c, Some(a))).subject.value) == Ok(a)
    ensures a != b ==> GenerateToken(c, Some(a)) != GenerateToken(c, Some(b))
  {
    if a != b {
      SubjectsDistinct(a, b);
    }
  }

  /** A `UsernamePasswordAuthenticationToken` in the security context: its principal (the
      subject string, possibly null) and its granted authorities. */
  datatype Authentication = Authentication(principal: Option<string>, authorities: seq<string>)

  /** `Authentication.getName()` for a string principal: the string itself, or "" when null. */
  function Name(a: Authentication): string {
    a.principal.GetOr("")
  }
}

=== FILE: project_service.dfy ===
/** `ProjectService`: project creation, the "my projects" query, assigning a user to a
    project, and listing a project's members. The check-then-add in `assignUserToProject`
    is one atomic transition here, and a series of requests is a sequence of such
    transitions, one after another. The source's lock belongs to the entity instance each
    request loads for itself, so it does not order two requests on the same project:
    serialising them is an assumption of the model, not a guarantee of the code. */
module ProjectService {
  import opened Java
  import opened Users
  import opened Projects
  import opened Repositories
  import UserService

  /** The request body of project creation; either field may be null. */
  datatype ProjectCreationDto = ProjectCreationDto(name: Option<string>, description: Option<string>)

  const ProjectNotFoundMessage: string := "Project not found"
  const AlreadyAssignedMessage: string := "User is already assigned to the project"

  /** `createProject(userId, dto)`, with the clock reading `LocalDate.now()` passed in as
      `today`. The creator is looked up first; the new project is in state TO_DO, copies
      name and description from the request, and has its creator as its only member. */
  function CreateProject(s: Store, userId: int, dto: ProjectCreationDto, today: Date): (r: Result<(Store, Project)>)
    ensures r.Err? <==> userId !in s.users.rows
    ensures r.Err? ==> r.error == UserService.FindById(s, userId).error
    ensures r.Ok? ==> r.value.1.state == ToDo && r.value.1.creator == userId && r.value.1.dateCreation == today
    ensures r.Ok? ==> r.value.1.name == dto.name && r.value.1.description == dto.description
    ensures r.Ok? ==> r.value.1.members == {userId} && r.value.1.taches == []
    ensures r.Ok? ==> r.value.1.id.Some? && r.value.0.projects.rows == s.projects.rows[r.value.1.id.value := r.value.1]
    ensures r.Ok? && Fresh(s.projects) ==> r.value.1.id.value !in s.projects.rows
    ensures r.Ok? ==> r.value.0.users == s.users && r.value.0.tasks == s.tasks
  {
    match UserService.FindById(s, userId)
    case Err(e) => Err(e)
    case Ok(creator) =>
      var project := Project(None, dto.name, dto.description, today, ToDo, userId, {}, []);
      var withCreator := AddMember(project, userId);
      Ok(SaveProject(s, withCreator))
  }

  /** The created project meets the field constraints exactly when the request does. */
  lemma CreatedProjectValidity(s: Store, userId: int, dto: ProjectCreationDto, today: Date)
    requires CreateProject(s, userId, dto, today).Ok?
    ensures ValidProject(CreateProject(s, userId, dto, today).value.1) <==>
              && dto.name.Some? && 3 <= |dto.name.value| <= 50
              && dto.description.Some? && |dto.description.value| <= 500
  {
  }

  /** Creating a project keeps the store valid and adds exactly one new project row. */
  lemma CreateProjectKeepsValid(s: Store, userId: int, dto: ProjectCreationDto, today: Date)
    requires Valid(s)
    requires CreateProject(s, userId, dto, today).Ok?
    ensures Valid(CreateProject(s, userId, dto, today).value.0)
    ensures |CreateProject(s, userId, dto, today).value.0.projects.rows| == |s.projects.rows| + 1
  {
    var r := CreateProject(s, userId, dto, today);
    var s' := r.value.0;
    forall t | t in s'.tasks.rows
      ensures TaskRefs(s', s'.tasks.rows[t])
    {
      assert TaskRefs(s, s.tasks.rows[t]);
    }
    forall k | k in s'.projects.rows
      ensures ProjectRefs(s', s'.projects.rows[k])
    {
      if k != r.value.1.id.value {
        assert ProjectRefs(s, s.projects.rows[k]);
      }
    }
  }

  /** Whether `userId` created or is a member of `p`. */
  predicate Involves(p: Project, userId: int) {
    p.creator == userId || userId in p.members
  }

  /** `getProjectsByUser(userId)`: the user is looked up first; then every project the user
      created or is a member of, each once (keyed by id). The DTO mapping is not modelled. */
  function GetProjectsByUser(s: Store, userId: int): (r: Result<map<int, Project>>)
    ensures r.Err? <==> userId !in s.users.rows
    ensures r.Err? ==> r.error == UserService.FindById(s, userId).error
    ensures r.Ok? ==> forall k :: k in r.value <==> k in s.projects.rows && Involves(s.projects.rows[k], userId)
    ensures r.Ok? ==> forall k :: k in r.value ==> r.value[k] == s.projects.rows[k]
  {
    match UserService.FindById(s, userId)
    case Err(e) => Err(e)
    case Ok(user) =>
      var createdByUser := map k | k in s.projects.rows && s.projects.rows[k].creator == userId :: s.projects.rows[k];
      var memberOf := map k | k in s.projects.rows && userId in s.projects.rows[k].members :: s.projects.rows[k];
      Ok(createdByUser + memberOf)
  }

  /** `assignUserToProject(projectId, userId)`: an unknown project fails before the user is
      looked up; an unknown user fails next; a user who is already a member is refused;
      otherwise the user is added and the project saved. Failures save nothing. */
  function AssignUserToProject(s: Store, projectId: int, userId: int): (r: Result<(Store, Project)>)
    ensures projectId !in s.projects.rows ==> r == Err(IllegalArgument(ProjectNotFoundMessage))
    ensures projectId in s.projects.rows && userId !in s.users.rows ==> r == Err(UserService.FindById(s, userId).error)
    ensures projectId in s.projects.rows && userId in s.users.rows && userId in s.projects.rows[projectId].members ==>
              r == Err(IllegalArgument(AlreadyAssignedMessage))
    ensures r.Ok? <==> projectId in s.projects.rows && userId in s.users.rows && userId !in s.projects.rows[projectId].members
    ensures r.Ok? ==> r.value.1.members == s.projects.rows[projectId].members + {userId}
    ensures r.Ok? ==> r.value.1 == s.projects.rows[projectId].(id := r.value.1.id, members := r.value.1.members)
    ensures r.Ok? && ProjectIdsMatch(s) ==> r.value.0 == s.(projects := s.projects.(rows := s.projects.rows[projectId := r.value.1]))
  {
    if projectId !in s.projects.rows then Err(IllegalArgument(ProjectNotFoundMessage))
    else
      var project := s.projects.rows[projectId];
      match UserService.FindById(s, userId)
      case Err(e) => Err(e)
      case Ok(user) =>
        if userId in project.members then Err(IllegalArgument(AlreadyAssignedMessage))
        else Ok(SaveProject(s, AddMember(project, userId)))
  }

  /** The part of `Valid` that saving an existing project relies on: every stored project
      carries its own key as its id, and that key lies below the next generated id. */
  predicate ProjectIdsMatch(s: Store) {
    && Fresh(s.projects)
    && forall k :: k in s.projects.rows ==> s.projects.rows[k].id == Some(k)
  }

  /** A successful assignment keeps the store valid. */
  lemma AssignKeepsValid(s: Store, projectId: int, userId: int)
    requires Valid(s)
    ensures AssignUserToProject(s, projectId, userId).Ok? ==> Valid(AssignUserToProject(s, projectId, userId).value.0)
  {
    var r := AssignUserToProject(s, projectId, userId);
    if r.Ok? {
      var s' := r.value.0;
      forall t | t in s'.tasks.rows
        ensures TaskRefs(s', s'.tasks.rows[t])
      {
        assert TaskRefs(s, s.tasks.rows[t]);
      }
      forall k | k in s'.projects.rows
        ensures ProjectRefs(s', s'.projects.rows[k])
      {
        assert ProjectRefs(s, s.projects.rows[k]);
      }
    }
  }

  /** Assigning the same user to the same project twice in a row: the second attempt is
      always refused as already assigned. */
  lemma SecondAssignFails(s: Store, projectId: int, userId: int)
    requires Valid(s)
    requires AssignUserToProject(s, projectId, userId).Ok?
    ensures AssignUserToProject(AssignUserToProject(s, projectId, userId).value.0, projectId, userId)
              == Err(IllegalArgument(AlreadyAssignedMessage))
  {
  }

  /** `getUsersByProject(projectId)`: the members of the project as user views, or
      "Project not found". */
  function GetUsersByProject(s: Store, projectId: int): (r: Result<map<int, UserDto>>)
    ensures projectId !in s.projects.rows <==> r == Err(IllegalArgument(ProjectNotFoundMessage))
    ensures r.Ok? ==> forall k :: k in r.value ==> k in s.projects.rows[projectId].members && k in s.users.rows && r.value[k] == ToDto(s.users.rows[k])
    ensures r.Ok? && Valid(s) ==> r.value.Keys == s.projects.rows[projectId].members
  {
    if projectId !in s.projects.rows then Err(IllegalArgument(ProjectNotFoundMessage))
    else
      var project := s.projects.rows[projectId];
      Ok(map k | k in project.members && k in s.users.rows :: ToDto(s.users.rows[k]))
  }

  /** After a successful assignment the user is listed among the project's users and the
      project is among the user's projects. */
  lemma AssignedUserIsVisible(s: Store, projectId: int, userId: int)
    requires Valid(s)
    requires AssignUserToProject(s, projectId, userId).Ok?
    ensures var s' := AssignUserToProject(s, projectId, userId).value.0;
            && GetUsersByProject(s', projectId).Ok? && userId in GetUsersByProject(s', projectId).value
            && GetProjectsByUser(s', userId).Ok? && projectId in GetProjectsByUser(s', userId).value
  {
    AssignKeepsValid(s, projectId, userId);
  }

  /** Assignment requests for one project served one at a time, in the order given (the
      serialisation the model assumes); the store moves on only when a request succeeds. */
  function AssignInOrder(s: Store, projectId: int, users: seq<int>): (r: (Store, seq<Result<Project>>))
    ensures |r.1| == |users|
    ensures r.0.users == s.users && r.0.tasks == s.tasks
    ensures forall i :: 0 <= i < |users| && r.1[i].Ok? ==> users[i] in r.1[i].value.members
    decreases |users|
  {
    if |users| == 0 then (s, [])
    else
      var first := AssignUserToProject(s, projectId, users[0]);
      var next := if first.Ok? then first.value.0 else s;
      var outcome: Result<Project> := if first.Ok? then Ok(first.value.1) else Err(first.error);
      var rest := AssignInOrder(next, projectId, users[1..]);
      (rest.0, [outcome] + rest.1)
  }

  /** K identical requests (same project, same user) against a project the user is not yet a
      member of: the first served succeeds, every later one is refused as already assigned,
      and the user ends up a member exactly once. */
  lemma {:induction false} IdenticalAssignsOneWins(s: Store, projectId: int, userId: int, users: seq<int>)
    requires Valid(s)
    requires projectId in s.projects.rows && userId in s.users.rows
    requires userId !in s.projects.rows[projectId].members
    requires |users| >= 1 && forall i :: 0 <= i < |users| ==> users[i] == userId
    ensures var r := AssignInOrder(s, projectId, users);
            && r.1[0].Ok?
            && (forall i :: 1 <= i < |users| ==> r.1[i] == Err(IllegalArgument(AlreadyAssignedMessage)))
            && projectId in r.0.projects.rows
            && r.0.projects.rows[projectId].members == s.projects.rows[projectId].members + {userId}
  {
    var first := AssignUserToProject(s, projectId, userId);
    AssignKeepsValid(s, projectId, userId);
    var s1 := first.value.0;
    AlreadyMemberAllRefused(s1, projectId, userId, users[1..]);
  }

  /** Requests for a user who is already a member are all refused and change nothing. */
  lemma {:induction false} AlreadyMemberAllRefused(s: Store, projectId: int, userId: int, users: seq<int>)
    requires Valid(s)
    requires projectId in s.projects.rows && userId in s.users.rows
    requires userId in s.projects.rows[projectId].members
    requires forall i :: 0 <= i < |users| ==> users[i] == userId
    ensures var r := AssignInOrder(s, projectId, users);
            && r.0 == s
            && forall i :: 0 <= i < |users| ==> r.1[i] == Err(IllegalArgument(AlreadyAssignedMessage))
    decreases |users|
  {
    if |users| > 0 {
      AlreadyMemberAllRefused(s, projectId, userId, users[1..]);
    }
  }

  /** The user ids a list of requests names. */
  function Elements(users: seq<int>): (r: set<int>)
    ensures forall x :: x in r <==> x in users
  {
    if |users| == 0 then {} else {users[0]} + Elements(users[1..])
  }

  /** No user id occurs twice in the list. */
  predicate Distinct(users: seq<int>) {
    |users| == 0 || (users[0] !in users[1..] && Distinct(users[1..]))
  }

  /** However the requests go, serving them keeps the store valid. */
  lemma {:induction false} AssignInOrderKeepsValid(s: Store, projectId: int, users: seq<int>)
    requires Valid(s)
    ensures Valid(AssignInOrder(s, projectId, users).0)
    decreases |users|
  {
    if |users| > 0 {
      AssignKeepsValid(s, projectId, users[0]);
      var first := AssignUserToProject(s, projectId, users[0]);
      AssignInOrderKeepsValid(if first.Ok? then first.value.0 else s, projectId, users[1..]);
    }
  }

  /** No lost update: whatever the order and however often a user is named, once the
      requests for stored users are served the member set is the old one plus every named user. */
  lemma {:induction false} AssignInOrderMembers(s: Store, projectId: int, users: seq<int>)
    requires ProjectIdsMatch(s)
    requires projectId in s.projects.rows
    requires forall u | u in users :: u in s.users.rows
    ensures var r := AssignInOrder(s, projectId, users);
            && ProjectIdsMatch(r.0)
            && r.0.users == s.users
            && projectId in r.0.projects.rows
            && r.0.projects.rows[projectId].members == s.projects.rows[projectId].members + Elements(users)
    decreases |users|
  {
    if |users| != 0 {
      var u := users[0];
      var first := AssignUserToProject(s, projectId, u);
      var next := if first.Ok? then first.value.0 else s;
      assert next.projects.rows[projectId].members == s.projects.rows[projectId].members + {u};
      AssignInOrderMembers(next, projectId, users[1..]);
      assert Elements(users) == {u} + Elements(users[1..]);
    }
  }

  /** K requests for K distinct stored users, none of them a member yet: every one succeeds. */
  lemma {:induction false} DistinctAssignsAllOk(s: Store, projectId: int, users: seq<int>)
    requires ProjectIdsMatch(s)
    requires projectId in s.projects.rows
    requires forall u | u in users :: u in s.users.rows && u !in s.projects.rows[projectId].members
    requires Distinct(users)
    ensures forall i :: 0 <= i < |users| ==> AssignInOrder(s, projectId, users).1[i].Ok?
    decreases |users|
  {
    if |users| != 0 {
      var u := users[0];
      var rest := users[1..];
      var first := AssignUserToProject(s, projectId, u);
      var s1 := first.value.0;
      assert s1.projects.rows[projectId].members == s.projects.rows[projectId].members + {u};
      DistinctAssignsAllOk(s1, projectId, rest);
      var r := AssignInOrder(s, projectId, users);
      var r1 := AssignInOrder(s1, projectId, rest);
      AssignInOrderCons(s, projectId, users);
      forall i | 0 <= i < |users|
        ensures r.1[i].Ok?
      {
        if i > 0 {
          assert r.1[i] == r1.1[i - 1];
        }
      }
    }
  }

  /** Distinct new names add exactly as many elements as there are names. */
  lemma {:induction false} DistinctElementsCount(m: set<int>, users: seq<int>)
    requires Distinct(users)
    requires forall u | u in users :: u !in m
    ensures |m + Elements(users)| == |m| + |users|
    decreases |users|
  {
    if |users| != 0 {
      var u := users[0];
      DistinctElementsCount(m + {u}, users[1..]);
      assert m + Elements(users) == (m + {u}) + Elements(users[1..]);
    }
  }

  /** K requests for K distinct existing users, none of them a member yet: every one succeeds
      and the member set grows by exactly K, and the store stays valid. */
  lemma DistinctAssignsAllSucceed(s: Store, projectId: int, users: seq<int>)
    requires Valid(s)
    requires projectId in s.projects.rows
    requires forall u | u in users :: u in s.users.rows && u !in s.projects.rows[projectId].members
    requires Distinct(users)
    ensures var r := AssignInOrder(s, projectId, users);
            && Valid(r.0)
            && (forall i :: 0 <= i < |users| ==> r.1[i].Ok?)
            && projectId in r.0.projects.rows
            && r.0.projects.rows[projectId].members == s.projects.rows[projectId].members + Elements(users)
            && |r.0.projects.rows[projectId].members| == |s.projects.rows[projectId].members| + |users|
  {
    AssignInOrderKeepsValid(s, projectId, users);
    AssignInOrderMembers(s, projectId, users);
    DistinctAssignsAllOk(s, projectId, users);
    DistinctElementsCount(s.projects.rows[projectId].members, users);
  }

  /** How a successful first request hands the store on to the rest. */
  lemma AssignInOrderCons(s: Store, projectId: int, users: seq<int>)
    requires |users| > 0
    ensures var first := AssignUserToProject(s, projectId, users[0]);
            var rest := AssignInOrder(if first.Ok? then first.value.0 else s, projectId, users[1..]);
            first.Ok? ==> AssignInOrder(s, projectId, users) == (rest.0, [Ok(first.value.1)] + rest.1)
  {
  }
}

=== FILE: projects.dfy ===
/** The `Project` aggregate: its fields, its field constraints, and the four operations
    on its member set and task list. Each operation takes the instance's own lock in the
    source; here each is one pure step. */
module Projects {
  import opened Java
  import opened Tasks

  /** `Project.EtatProjet`. A project's state is always one of these three values. */
  datatype EtatProjet = ToDo | EnCours | Termine

  /** A project. Members are users identified by id (one managed instance per id); the
      task list is the inverse side of the task/project association and may hold the
      same task more than once. The creator is a non-null column. */
  datatype Project = Project(
    id: Option<int>,
    name: Option<string>,
    description: Option<string>,
    dateCreation: Date,
    state: EtatProjet,
    creator: int,
    members: set<int>,
    taches: seq<Task>)

  /** The declared field constraints: a non-null name of 3 to 50 characters and a
      non-null description of at most 500 characters. */
  predicate ValidProject(p: Project) {
    && p.name.Some? && 3 <= |p.name.value| <= 50
    && p.description.Some? && |p.description.value| <= 500
  }

  /** `q` differs from `p` at most in its member set. */
  predicate OnlyMembersChanged(p: Project, q: Project) {
    q == p.(members := q.members)
  }

  /** `q` differs from `p` at most in its task list. */
  predicate OnlyTasksChanged(p: Project, q: Project) {
    q == p.(taches := q.taches)
  }

  /** `addMember`: set insertion, so adding an existing member changes nothing. */
  function AddMember(p: Project, user: int): (r: Project)
    ensures r.members == p.members + {user}
    ensures user in p.members ==> r == p
    ensures |r.members| == if user in p.members then |p.members| else |p.members| + 1
    ensures OnlyMembersChanged(p, r)
  {
    p.(members := p.members + {user})
  }

  /** `removeMember`: set removal, so removing a non-member changes nothing. */
  function RemoveMember(p: Project, user: int): (r: Project)
    ensures r.members == p.members - {user}
    ensures user !in p.members ==> r == p
    ensures OnlyMembersChanged(p, r)
  {
    p.(members := p.members - {user})
  }

  /** `addTask`: appends, so the list grows by exactly one even when the task is already there. */
  function AddTask(p: Project, task: Task): (r: Project)
    ensures |r.taches| == |p.taches| + 1
    ensures r.taches[..|p.taches|] == p.taches && r.taches[|p.taches|] == task
    ensures OnlyTasksChanged(p, r)
  {
    p.(taches := p.taches + [task])
  }

  /** `removeTask`: removes the first occurrence if there is one, otherwise changes nothing. */
  function RemoveTask(p: Project, task: Task): (r: Project)
    ensures task !in p.taches ==> r == p
    ensures task in p.taches ==> |r.taches| == |p.taches| - 1
    ensures multiset(r.taches) == multiset(p.taches) - multiset{task}
    ensures r.taches == ListRemove(p.taches, task)
    ensures OnlyTasksChanged(p, r)
  {
    p.(taches := ListRemove(p.taches, task))
  }

  /** Adding then removing a member restores the set when the user was not a member,
      and removing then re-adding restores it when the user was one. */
  lemma MemberRoundTrip(p: Project, user: int)
    ensures user !in p.members ==> RemoveMember(AddMember(p, user), user) == p
    ensures user in p.members ==> AddMember(RemoveMember(p, user), user) == p
  {
    if user !in p.members {
      assert p.members + {user} - {user} == p.members;
    } else {
      assert p.members - {user} + {user} == p.members;
    }
  }

  /** Adding a task and then removing it gives back the same tasks, though not always in
      the same order: when the task was already listed it is the earlier copy that goes. */
  lemma {:induction false} TaskRoundTrip(p: Project, task: Task)
    ensures multiset(RemoveTask(AddTask(p, task), task).taches) == multiset(p.taches)
    ensures task !in p.taches ==> RemoveTask(AddTask(p, task), task) == p
  {
    var q := AddTask(p, task);
    assert q.taches == p.taches + [task];
    if task !in p.taches {
      assert IndexOf(q.taches, task) == |p.taches|;
      assert q.taches[..|p.taches|] == p.taches;
    }
  }
}

=== FILE: security_config.dfy ===
/** The route policy of the security chain (`SecurityConfig.filterChain`) and one request
    through it. Sessions are stateless, so every request starts with an empty security
    context and the bearer-token gate is the only thing that can fill it in. */
module SecurityConfig {
  import opened Java
  import Decimal
  import opened Jwt
  import Gate = SecurityJwtFilter
  import AuthenticationService
  import UserService
  import opened Repositories

  /** The paths open without an identity: the login and registration endpoints, and the
      H2 console with everything beneath it. */
  predicate PermitAll(path: string) {
    || path == "/auth/login"
    || path == "/users/register"
    || path == "/h2-console"
    || StartsWith(path, "/h2-console/")
  }

  /** What becomes of a request: it reaches its handler with the context the gate left,
      it is turned away for want of an identity, or an exception escapes the gate. */
  datatype Decision = Granted(context: Option<Authentication>) | Rejected | Failed(error: Exception)

  /** One request: the gate runs on an empty context, then the route policy asks for an
      identity on every path it does not open. */
  function HandleRequest(c: Codec, path: string, header: Option<string>): (r: Decision)
    ensures r.Rejected? <==> !PermitAll(path) && Gate.DoFilter(c, header, None) == Gate.Continue(None)
    ensures r.Failed? <==> Gate.DoFilter(c, header, None).Raised?
    ensures r.Granted? && !PermitAll(path) ==> r.context.Some?
    ensures r.Granted? && r.context.Some? ==>
              && Gate.ExtractToken(header).Some?
              && header.value == Gate.BearerPrefix + Gate.ExtractToken(header).value
              && c.validate(Gate.ExtractToken(header).value)
              && c.extract(Gate.ExtractToken(header).value) == Extracted(r.context.value.principal)
  {
    match Gate.DoFilter(c, header, None)
    case Raised(e) => Failed(e)
    case Continue(ctx) =>
      if PermitAll(path) || ctx.Some? then Granted(ctx) else Rejected
  }

  /** On a protected path, a request with no header, with a header that is not a bearer
      credential, or with a token that does not validate is rejected; on an open path no
      request is rejected. */
  lemma ProtectedPathsNeedAToken(c: Codec, path: string, header: Option<string>)
    ensures (!PermitAll(path) && (Gate.ExtractToken(header).None? || !c.validate(Gate.ExtractToken(header).value)))
            ==> HandleRequest(c, path, header) == Rejected
    ensures PermitAll(path) ==> !HandleRequest(c, path, header).Rejected?
  {
  }

  /** The login endpoints and the console tree are open, and the API paths are not. */
  lemma RoutePolicyExamples()
    ensures PermitAll("/auth/login") && PermitAll("/users/register")
    ensures PermitAll("/h2-console") && PermitAll("/h2-console/login.do")
    ensures !PermitAll("/projects") && !PermitAll("/auth/login/extra") && !PermitAll("/h2-consoles")
  {
    assert "/h2-console/login.do"[..|"/h2-console/"|] == "/h2-console/";
    assert "/auth/login/extra"[..|"/h2-console/"|] != "/h2-console/" by {
      assert "/auth/login/extra"[1] == 'a';
    }
    assert "/h2-consoles"[..|"/h2-console/"|] != "/h2-console/" by {
      assert "/h2-consoles"[11] == 's';
    }
  }

  /** The whole path: a registered user logs in, sends the token back as a bearer
      credential on any route, and the service reads the user's own id from the identity
      the gate set. It needs of the opaque codec only that, at the moment of the request,
      the token it signed validates and carries the subject it was given. */
  lemma LoginThenRequest(s: Store, enc: UserService.PasswordEncoder, c: Codec, email: string, password: string,
                         k: int, path: string)
    requires Valid(s)
    requires k in s.users.rows && s.users.rows[k].email == Some(email) && IsLong(k)
    requires UserService.Matches(enc, password, s.users.rows[k].password)
    requires c.validate(c.sign(Decimal.ToString(k)))
    requires CarriesSubject(c, c.sign(Decimal.ToString(k)), Decimal.ToString(k))
    ensures var login := UserService.Authenticate(s, enc, c, email, password);
            && login.Ok?
            && login.value == GenerateToken(c, Some(k))
            && HandleRequest(c, path, Some(Gate.BearerPrefix + login.value))
                 == Granted(Some(Authentication(Some(Decimal.ToString(k)), [])))
            && AuthenticationService.GetAuthenticatedUserId(Some(Authentication(Some(Decimal.ToString(k)), []))) == Ok(k)
  {
    var found := UserService.WithEmail(s, email);
    forall j | j in found
      ensures j == k
    {
      assert s.users.rows[j].email == s.users.rows[k].email;
    }
    assert found == {k};
    assert s.users.rows[k].id == Some(k);
    var token := c.sign(Decimal.ToString(k));
    Gate.ExtractTokenRoundTrip(token);
    AuthenticationService.SubjectRoundTrip(Some(k), []);
  }
}

=== FILE: security_filter.dfy ===
/** The bearer-token gate of the security chain (`Security/JWTFilter`). It reads the
    `Authorization` header, and when the header carries a token that validates it places
    the token's subject in the request's security context. It never rejects a request
    itself: the chain always continues, and deciding whether a missing identity matters is
    left to the route policy. */
module SecurityJwtFilter {
  import opened Java
  import opened Jwt

  const BearerPrefix: string := "Bearer "

  /** What a filter hands on: the chain continues with this security context (null when no
      identity is set), or an exception escapes the filter. */
  datatype FilterOutcome = Continue(context: Option<Authentication>) | Raised(error: Exception)

  /** `extractToken(request)`: the header with its exact, case-sensitive "Bearer " prefix
      cut off, or null when the header is absent or has another prefix. */
  function ExtractToken(header: Option<string>): (token: Option<string>)
    ensures token.Some? <==> header.Some? && StartsWith(header.value, BearerPrefix)
    ensures token.Some? ==> header.value == BearerPrefix + token.value
  {
    if header.Some? && StartsWith(header.value, BearerPrefix) then
      assert header.value == header.value[..|BearerPrefix|] + header.value[|BearerPrefix|..];
      Some(header.value[|BearerPrefix|..])
    else None
  }

  /** Whatever follows the prefix is recovered exactly, spaces and all. */
  lemma ExtractTokenRoundTrip(token: string)
    ensures ExtractToken(Some(BearerPrefix + token)) == Some(token)
  {
    var header := BearerPrefix + token;
    assert header[..|BearerPrefix|] == BearerPrefix;
    assert header[|BearerPrefix|..] == token;
  }

  /** `doFilterInternal`: with a token that validates, the context is set to the token's
      subject with no authorities (replacing whatever was there); a token that validates
      but then fails to parse lets the exception escape; in every other case the request
      goes on with its context untouched. */
  function DoFilter(c: Codec, header: Option<string>, ctx: Option<Authentication>): (r: FilterOutcome)
    ensures ExtractToken(header).None? ==> r == Continue(ctx)
    ensures ExtractToken(header).Some? && !c.validate(ExtractToken(header).value) ==> r == Continue(ctx)
    ensures r.Raised? ==> r.error == JwtFailure && ExtractToken(header).Some?
                          && c.validate(ExtractToken(header).value) && c.extract(ExtractToken(header).value) == ParseFailure
    ensures r.Continue? && r.context != ctx ==>
              && ExtractToken(header).Some? && c.validate(ExtractToken(header).value)
              && c.extract(ExtractToken(header).value).Extracted?
              && r.context == Some(Authentication(c.extract(ExtractToken(header).value).subject, []))
    ensures ExtractToken(header).Some? && c.validate(ExtractToken(header).value) && c.extract(ExtractToken(header).value).Extracted? ==>
              r == Continue(Some(Authentication(c.extract(ExtractToken(header).value).subject, [])))
  {
    var token := ExtractToken(header);
    if token.Some? && c.validate(token.value) then
      match c.extract(token.value)
      case ParseFailure => Raised(JwtFailure)
      case Extracted(subject) => Continue(Some(Authentication(subject, [])))
    else Continue(ctx)
  }

  /** The gate itself never refuses: without a token, or with one that does not validate,
      the chain continues exactly as it came in; and a token that validates and parses
      always wins, even over an identity already present. */
  lemma GateNeverRejects(c: Codec, token: string, ctx: Option<Authentication>)
    ensures DoFilter(c, None, ctx) == Continue(ctx)
    ensures !c.validate(token) ==> DoFilter(c, Some(BearerPrefix + token), ctx) == Continue(ctx)
    ensures c.validate(token) && c.extract(token).Extracted? ==>
              DoFilter(c, Some(BearerPrefix + token), ctx) == Continue(Some(Authentication(c.extract(token).subject, [])))
  {
    ExtractTokenRoundTrip(token);
  }
}

=== FILE: service_filter.dfy ===
/** The second bearer-token gate (`Service/JWTFilter`). It strips the same "Bearer " prefix,
    but it reads the token's subject before validating the token, sets an identity only
    when none is present yet, and grants that identity the single authority ROLE_USER. */
module ServiceJwtFilter {
  import opened Java
  import opened Jwt
  import Gate = SecurityJwtFilter

  const UserRole: string := "ROLE_USER"

  /** `doFilterInternal`: a token is extracted as by the other gate; its subject is read
      at once (an unparsable token lets the exception escape); an identity with that
      subject and ROLE_USER is set only when the subject is non-null, the context is still
      empty and the token validates; otherwise the chain continues unchanged. */
  function DoFilter(c: Codec, header: Option<string>, ctx: Option<Authentication>): (r: Gate.FilterOutcome)
    ensures Gate.ExtractToken(header).None? ==> r == Gate.Continue(ctx)
    ensures r.Raised? <==> Gate.ExtractToken(header).Some? && c.extract(Gate.ExtractToken(header).value) == ParseFailure
    ensures r.Raised? ==> r.error == JwtFailure
    ensures ctx.Some? && r.Continue? ==> r.context == ctx
    ensures r.Continue? && r.context != ctx ==>
              && ctx.None? && Gate.ExtractToken(header).Some?
              && c.validate(Gate.ExtractToken(header).value)
              && c.extract(Gate.ExtractToken(header).value).Extracted?
              && c.extract(Gate.ExtractToken(header).value).subject.Some?
              && r.context == Some(Authentication(c.extract(Gate.ExtractToken(header).value).subject, [UserRole]))
    ensures ctx.None? && Gate.ExtractToken(header).Some? && c.validate(Gate.ExtractToken(header).value)
            && c.extract(Gate.ExtractToken(header).value).Extracted?
            && c.extract(Gate.ExtractToken(header).value).subject.Some? ==>
              r == Gate.Continue(Some(Authentication(c.extract(Gate.ExtractToken(header).value).subject, [UserRole])))
  {
    var token := Gate.ExtractToken(header);
    if token.None? then Gate.Continue(ctx)
    else
      match c.extract(token.value)
      case ParseFailure => Gate.Raised(JwtFailure)
      case Extracted(subject) =>
        if subject.Some? && ctx.None? && c.validate(token.value) then
          Gate.Continue(Some(Authentication(subject, [UserRole])))
        else Gate.Continue(ctx)
  }

  /** Where the two gates part ways. They do not share a key: the security gate checks
      tokens with the codec `cs` the login tokens are signed with, this gate with its own
      codec `cv`, whose key is generated afresh. A token `cv` cannot parse makes this gate
      fail, whatever the security gate makes of it; in particular a login token that
      validates under `cs` is installed by the security gate and refused here. When both
      codecs accept a token and read the same subject, both gates install that principal
      from an empty context, differing only in the authorities; with an identity already
      present, only the security gate replaces it. */
  lemma GatesCompared(cs: Codec, cv: Codec, token: string, ctx: Option<Authentication>)
    ensures var header := Some(Gate.BearerPrefix + token);
            cv.extract(token) == ParseFailure ==> DoFilter(cv, header, ctx) == Gate.Raised(JwtFailure)
    ensures var header := Some(Gate.BearerPrefix + token);
            !cs.validate(token) ==> Gate.DoFilter(cs, header, ctx) == Gate.Continue(ctx)
    ensures var header := Some(Gate.BearerPrefix + token);
            cs.validate(token) && cs.extract(token).Extracted? && cv.extract(token) == ParseFailure ==>
              && Gate.DoFilter(cs, header, ctx) == Gate.Continue(Some(Authentication(cs.extract(token).subject, [])))
              && DoFilter(cv, header, ctx) == Gate.Raised(JwtFailure)
    ensures var header := Some(Gate.BearerPrefix + token);
            cs.validate(token) && cs.extract(token).Extracted? && cs.extract(token).subject.Some?
            && cv.validate(token) && cv.extract(token) == cs.extract(token) ==>
              && Gate.DoFilter(cs, header, None).Continue?
              && DoFilter(cv, header, None).Continue?
              && Gate.DoFilter(cs, header, None).context.value.principal == DoFilter(cv, header, None).context.value.principal
              && DoFilter(cv, header, None).context.value.authorities == [UserRole]
              && Gate.DoFilter(cs, header, None).context.value.authorities == []
              && (ctx.Some? ==> DoFilter(cv, header, ctx) == Gate.Continue(ctx))
  {
    Gate.ExtractTokenRoundTrip(token);
  }
}

=== FILE: store.dfy ===
/** The three Spring Data repositories as one immutable store. Each table maps ids to
    rows and carries the next value of its identity column; `save` writes a row at its
    own id, or at a freshly generated id when the entity's id is still null. */
module Repositories {
  import opened Java
  import opened Users
  import opened Tasks
  import opened Projects

  datatype Table<T> = Table(rows: map<int, T>, next: int)

  /** Every stored key lies below the next generated id, so a generated id is always new. */
  predicate Fresh<T>(t: Table<T>) {
    forall k :: k in t.rows ==> k < t.next
  }

  /** The key `save` writes to: the entity's own id, or a newly generated one when it is null. */
  function KeyFor<T>(t: Table<T>, id: Option<int>): (k: int)
    ensures id.Some? ==> k == id.value
    ensures id.None? && Fresh(t) ==> k !in t.rows
  {
    if id.Some? then id.value else t.next
  }

  /** Write one row, keeping the identity column ahead of every key. */
  function Put<T>(t: Table<T>, k: int, row: T): (r: Table<T>)
    ensures r.rows.Keys == t.rows.Keys + {k} && r.rows[k] == row
    ensures forall j :: j in t.rows && j != k ==> r.rows[j] == t.rows[j]
    ensures Fresh(t) ==> Fresh(r)
  {
    Table(t.rows[k := row], if k < t.next then t.next else k + 1)
  }

  datatype Store = Store(users: Table<User>, projects: Table<Project>, tasks: Table<Task>)

  /** The username, email and password columns are declared non-null. */
  predicate NonNullColumns(u: User) {
    u.username.Some? && u.email.Some? && u.password.Some?
  }

  /** No two users share an email or a username (the unique columns of the users table). */
  predicate UniqueColumns(users: map<int, User>) {
    forall j, k :: j in users && k in users && j != k ==>
      users[j].email != users[k].email && users[j].username != users[k].username
  }

  /** A project's creator and members are stored users. */
  predicate ProjectRefs(s: Store, p: Project) {
    p.creator in s.users.rows && p.members <= s.users.rows.Keys
  }

  /** A task belongs to a stored project (a non-null column) and its assignee, if any, is stored. */
  predicate TaskRefs(s: Store, t: Task) {
    && t.project.Some? && t.project.value in s.projects.rows
    && (t.user.Some? ==> t.user.value in s.users.rows)
  }

  /** What the database guarantees of every reachable state. */
  predicate Valid(s: Store) {
    && Fresh(s.users) && Fresh(s.projects) && Fresh(s.tasks)
    && (forall k :: k in s.users.rows ==> s.users.rows[k].id == Some(k))
    && (forall k :: k in s.projects.rows ==> s.projects.rows[k].id == Some(k))
    && (forall k :: k in s.tasks.rows ==> s.tasks.rows[k].id == Some(k))
    && (forall k :: k in s.users.rows ==> NonNullColumns(s.users.rows[k]))
    && UniqueColumns(s.users.rows)
    && (forall k :: k in s.projects.rows ==> ProjectRefs(s, s.projects.rows[k]))
    && (forall k :: k in s.tasks.rows ==> TaskRefs(s, s.tasks.rows[k]))
  }

  /** The empty database a fresh deployment starts from. */
  function Empty(): (s: Store)
    ensures Valid(s)
    ensures s.users.rows == map[] && s.projects.rows == map[] && s.tasks.rows == map[]
  {
    Store(Table(map[], 1), Table(map[], 1), Table(map[], 1))
  }

  /** `projectRepository.save(p)`: the returned project carries its id and is what a later
      lookup of that id yields; no other project, user or task changes. */
  function SaveProject(s: Store, p: Project): (r: (Store, Project))
    ensures r.1 == p.(id := r.1.id) && r.1.id.Some?
    ensures p.id.Some? ==> r.1.id == p.id
    ensures p.id.None? && Fresh(s.projects) ==> r.1.id.value !in s.projects.rows
    ensures r.0.projects.rows == s.projects.rows[r.1.id.value := r.1]
    ensures Fresh(s.projects) ==> Fresh(r.0.projects)
    ensures r.0.users == s.users && r.0.tasks == s.tasks
  {
    var k := KeyFor(s.projects, p.id);
    var saved := p.(id := Some(k));
    (s.(projects := Put(s.projects, k, saved)), saved)
  }

  /** `taskRepository.save(t)`, with the same guarantees as `SaveProject`. */
  function SaveTask(s: Store, t: Task): (r: (Store, Task))
    ensures r.1 == t.(id := r.1.id) && r.1.id.Some?
    ensures t.id.Some? ==> r.1.id == t.id
    ensures t.id.None? && Fresh(s.tasks) ==> r.1.id.value !in s.tasks.rows
    ensures r.0.tasks.rows == s.tasks.rows[r.1.id.value := r.1]
    ensures Fresh(s.tasks) ==> Fresh(r.0.tasks)
    ensures r.0.users == s.users && r.0.projects == s.projects
  {
    var k := KeyFor(s.tasks, t.id);
    var saved := t.(id := Some(k));
    (s.(tasks := Put(s.tasks, k, saved)), saved)
  }

  /** Another stored row already holds `u`'s email or username. */
  predicate UniqueClash(s: Store, u: User) {
    exists j :: j in s.users.rows && j != KeyFor(s.users, u.id)
                && (s.users.rows[j].email == u.email || s.users.rows[j].username == u.username)
  }

  /** The task's project is one that user `k` created. */
  predicate CreatedBy(s: Store, project: Option<int>, k: int) {
    project.Some? && project.value in s.projects.rows && s.projects.rows[project.value].creator == k
  }

  /** What merging a user row whose `createdProjects` arrives empty does to the other tables:
      the collection cascades with orphan removal, so every project user `k` created is
      deleted, and with it (the task list cascades the same way) every task of those
      projects. Nothing else changes. */
  function DropCreated(s: Store, k: int): (r: Store)
    ensures r.users == s.users
    ensures r.projects.next == s.projects.next && r.tasks.next == s.tasks.next
    ensures forall j :: j in r.projects.rows <==> j in s.projects.rows && s.projects.rows[j].creator != k
    ensures forall j :: j in r.projects.rows ==> r.projects.rows[j] == s.projects.rows[j]
    ensures forall t :: t in r.tasks.rows <==> t in s.tasks.rows && !CreatedBy(s, s.tasks.rows[t].project, k)
    ensures forall t :: t in r.tasks.rows ==> r.tasks.rows[t] == s.tasks.rows[t]
  {
    Store(
      s.users,
      Table(map j | j in s.projects.rows && s.projects.rows[j].creator != k :: s.projects.rows[j], s.projects.next),
      Table(map t | t in s.tasks.rows && !CreatedBy(s, s.tasks.rows[t].project, k) :: s.tasks.rows[t], s.tasks.next))
  }

  /** `userRepository.save(u)`: like the others, except that the users table refuses a row
      with a null username, email or password, or one that would repeat another user's
      email or username; both surface as a data integrity violation. Saving over an
      existing row is a merge of the incoming entity, whose empty `createdProjects`
      deletes the projects that user created and their tasks; a new row touches no other
      table. */
  function SaveUser(s: Store, u: User): (r: Result<(Store, User)>)
    ensures r.Err? ==> r.error == DataIntegrityViolation
    ensures r.Err? <==> || !NonNullColumns(u)
                        || (exists j :: j in s.users.rows && j != KeyFor(s.users, u.id)
                                        && (s.users.rows[j].email == u.email || s.users.rows[j].username == u.username))
    ensures r.Ok? ==> r.value.1 == u.(id := r.value.1.id) && r.value.1.id.Some?
    ensures r.Ok? && u.id.Some? ==> r.value.1.id == u.id
    ensures r.Ok? ==> r.value.0.users.rows == s.users.rows[r.value.1.id.value := r.value.1]
    ensures r.Ok? && r.value.1.id.value !in s.users.rows ==> r.value.0.projects == s.projects && r.value.0.tasks == s.tasks
    ensures r.Ok? && r.value.1.id.value in s.users.rows ==>
              var d := DropCreated(s, r.value.1.id.value);
              r.value.0.projects == d.projects && r.value.0.tasks == d.tasks
  {
    var k := KeyFor(s.users, u.id);
    if !NonNullColumns(u) || UniqueClash(s, u) then
      Err(DataIntegrityViolation)
    else
      var saved := u.(id := Some(k));
      var rest := if k in s.users.rows then DropCreated(s, k) else s;
      Ok((rest.(users := Put(s.users, k, saved)), saved))
  }

  /** Dropping a user's created projects and their tasks keeps the store valid: every task
      left belongs to a project that is left. */
  lemma DropCreatedKeepsValid(s: Store, k: int)
    requires Valid(s)
    ensures Valid(DropCreated(s, k))
  {
    var d := DropCreated(s, k);
    forall t | t in d.tasks.rows
      ensures TaskRefs(d, d.tasks.rows[t])
    {
      assert TaskRefs(s, s.tasks.rows[t]);
      assert !CreatedBy(s, s.tasks.rows[t].project, k);
    }
    forall p | p in d.projects.rows
      ensures ProjectRefs(d, d.projects.rows[p])
    {
      assert ProjectRefs(s, s.projects.rows[p]);
    }
  }

  /** Saving a user keeps the store valid, whether it inserts, updates or is rejected. */
  lemma SaveUserKeepsValid(s: Store, u: User)
    requires Valid(s)
    ensures SaveUser(s, u).Ok? ==> Valid(SaveUser(s, u).value.0)
  {
    var r := SaveUser(s, u);
    if r.Ok? {
      var k := r.value.1.id.value;
      var rest := if k in s.users.rows then DropCreated(s, k) else s;
      if k in s.users.rows {
        DropCreatedKeepsValid(s, k);
      }
      var s' := r.value.0;
      assert s' == rest.(users := Put(s.users, k, r.value.1));
      forall p | p in s'.projects.rows
        ensures ProjectRefs(s', s'.projects.rows[p])
      {
        assert ProjectRefs(rest, rest.projects.rows[p]);
      }
      forall t | t in s'.tasks.rows
        ensures TaskRefs(s', s'.tasks.rows[t])
      {
        assert TaskRefs(rest, rest.tasks.rows[t]);
      }
    }
  }
}

=== FILE: task_service.dfy ===
/** `TaskServiceImpl`: adding a task to a project, listing a project's tasks, assigning a
    task, changing its state, and the two mappings between the entity and its DTO. Each
    operation is one atomic step here. The source brackets two of the writes with
    `lockTask`/`unlockTask` calls that `Task` does not define, and `changeTaskState` takes
    no lock at all, so that atomicity is an assumption of the model. */
module TaskService {
  import opened Java
  import Decimal
  import opened Tasks
  import opened Repositories

  /** `TaskDto`: every field nullable; the state travels as the enum constant's name, the
      assignee and the project as their ids. */
  datatype TaskDto = TaskDto(
    id: Option<int>,
    description: Option<string>,
    dueDate: Option<Date>,
    state: Option<string>,
    userId: Option<int>,
    projectId: Option<int>)

  /** A state name `valueOf` accepts, or a null one. */
  predicate StateAccepted(state: Option<string>) {
    state.None? || ValueOf(state.value).Ok?
  }

  /** `mapToDto(task)`: the fields are copied, a non-null state becomes its name, and the
      assignee and project become their ids. */
  function MapToDto(t: Task): (d: TaskDto)
    ensures d.id == t.id && d.description == t.description && d.dueDate == t.dueDate
    ensures d.state.Some? <==> t.state.Some?
    ensures t.state.Some? ==> ValueOf(d.state.value) == Ok(t.state.value)
    ensures d.userId == t.user && d.projectId == t.project
  {
    var state := if t.state.Some? then Some(Name(t.state.value)) else None;
    TaskDto(t.id, t.description, t.dueDate, state, t.user, t.project)
  }

  /** `mapToEntity(dto)`: copies id, description and due date, parses a non-null state with
      `valueOf` (which throws on an unknown name), and leaves assignee and project null. */
  function MapToEntity(d: TaskDto): (r: Result<Task>)
    ensures r.Ok? <==> StateAccepted(d.state)
    ensures r.Err? ==> r.error == ValueOf(d.state.value).error
    ensures r.Ok? ==> r.value.id == d.id && r.value.description == d.description && r.value.dueDate == d.dueDate
    ensures r.Ok? ==> r.value.user.None? && r.value.project.None?
    ensures r.Ok? ==> (r.value.state.Some? <==> d.state.Some?)
    ensures r.Ok? && d.state.Some? ==> Name(r.value.state.value) == d.state.value
  {
    if d.state.None? then Ok(Task(d.id, d.description, d.dueDate, None, None, None))
    else
      match ValueOf(d.state.value)
      case Err(e) => Err(e)
      case Ok(st) => Ok(Task(d.id, d.description, d.dueDate, Some(st), None, None))
  }

  /** An entity survives the trip to its DTO and back, except for the two associations,
      which `mapToEntity` never fills in. */
  lemma EntityRoundTrip(t: Task)
    ensures MapToEntity(MapToDto(t)) == Ok(t.(user := None, project := None))
  {
    if t.state.Some? {
      ValueOfName(t.state.value);
    }
  }

  /** A DTO whose state is accepted survives the trip to an entity and back, except for
      the assignee and project ids, which are dropped. */
  lemma DtoRoundTrip(d: TaskDto)
    requires StateAccepted(d.state)
    ensures MapToEntity(d).Ok?
    ensures MapToDto(MapToEntity(d).value) == d.(userId := None, projectId := None)
  {
    var t := MapToEntity(d).value;
    if d.state.Some? {
      assert Name(t.state.value) == d.state.value;
    }
  }

  function ProjectNotFoundError(projectId: int): (e: Exception)
    ensures e.ProjectNotFound? && Contains(e.message, Decimal.ToString(projectId))
  {
    ContainsMiddle("Project not found with id: ", Decimal.ToString(projectId), "");
    assert "Project not found with id: " + Decimal.ToString(projectId) + ""
        == "Project not found with id: " + Decimal.ToString(projectId);
    ProjectNotFound("Project not found with id: " + Decimal.ToString(projectId))
  }

  function UserNotFoundError(userId: int): (e: Exception)
    ensures e.UserNotFound? && Contains(e.message, Decimal.ToString(userId))
  {
    ContainsMiddle("User not found with id: ", Decimal.ToString(userId), "");
    assert "User not found with id: " + Decimal.ToString(userId) + ""
        == "User not found with id: " + Decimal.ToString(userId);
    UserNotFound("User not found with id: " + Decimal.ToString(userId))
  }

  function TaskNotFoundError(taskId: int): (e: Exception)
    ensures e.TaskNotFound? && Contains(e.message, Decimal.ToString(taskId))
  {
    ContainsMiddle("Task not found with id: ", Decimal.ToString(taskId), "");
    assert "Task not found with id: " + Decimal.ToString(taskId) + ""
        == "Task not found with id: " + Decimal.ToString(taskId);
    TaskNotFound("Task not found with id: " + Decimal.ToString(taskId))
  }

  /** `addTaskToProject(projectId, dto)`. The project is looked up first, then the DTO is
      mapped (an unknown state name throws), the task is attached to the project, a
      missing state defaults to TO_DO, a named assignee must exist, and the task is saved
      (at the DTO's id when it has one). The result is the saved task as a DTO. */
  function AddTaskToProject(s: Store, projectId: int, dto: TaskDto): (r: Result<(Store, TaskDto)>)
    ensures projectId !in s.projects.rows ==> r == Err(ProjectNotFoundError(projectId))
    ensures projectId in s.projects.rows && !StateAccepted(dto.state) ==> r == Err(ValueOf(dto.state.value).error)
    ensures (projectId in s.projects.rows && StateAccepted(dto.state) && dto.userId.Some? && dto.userId.value !in s.users.rows)
            ==> r == Err(UserNotFoundError(dto.userId.value))
    ensures r.Ok? <==> projectId in s.projects.rows && StateAccepted(dto.state)
                       && (dto.userId.Some? ==> dto.userId.value in s.users.rows)
    ensures r.Ok? ==> r.value.1.id.Some? && (dto.id.Some? ==> r.value.1.id == dto.id)
    ensures r.Ok? ==> r.value.1.description == dto.description && r.value.1.dueDate == dto.dueDate
    ensures r.Ok? ==> r.value.1.state == Some(dto.state.GetOr("TO_DO"))
    ensures r.Ok? ==> r.value.1.userId == dto.userId && r.value.1.projectId == Some(projectId)
    ensures r.Ok? ==> r.value.1.id.value in r.value.0.tasks.rows
                      && MapToDto(r.value.0.tasks.rows[r.value.1.id.value]) == r.value.1
    ensures r.Ok? ==> forall k :: k in s.tasks.rows && k != r.value.1.id.value ==>
                        k in r.value.0.tasks.rows && r.value.0.tasks.rows[k] == s.tasks.rows[k]
    ensures r.Ok? ==> r.value.0.tasks.rows.Keys == s.tasks.rows.Keys + {r.value.1.id.value}
    ensures r.Ok? ==> r.value.0.users == s.users && r.value.0.projects == s.projects
  {
    if projectId !in s.projects.rows then Err(ProjectNotFoundError(projectId))
    else
      match MapToEntity(dto)
      case Err(e) => Err(e)
      case Ok(entity) =>
        var attached := entity.(project := Some(projectId));
        var defaulted := if attached.state.None? then attached.(state := Some(ToDo)) else attached;
        if dto.userId.Some? && dto.userId.value !in s.users.rows then Err(UserNotFoundError(dto.userId.value))
        else
          var task := if dto.userId.Some? then defaulted.(user := dto.userId) else defaulted;
          var (s', saved) := SaveTask(s, task);
          Ok((s', MapToDto(saved)))
  }

  /** Adding a task keeps the store valid; a task without an id gets a new row. */
  lemma AddTaskKeepsValid(s: Store, projectId: int, dto: TaskDto)
    requires Valid(s)
    ensures var r := AddTaskToProject(s, projectId, dto);
            r.Ok? ==> && Valid(r.value.0)
                      && (dto.id.None? ==> (r.value.1.id.value !in s.tasks.rows && |r.value.0.tasks.rows| == |s.tasks.rows| + 1))
  {
    var r := AddTaskToProject(s, projectId, dto);
    if r.Ok? {
      var s' := r.value.0;
      var k := r.value.1.id.value;
      assert s'.tasks.rows.Keys == s.tasks.rows.Keys + {k};
      forall j | j in s'.projects.rows
        ensures ProjectRefs(s', s'.projects.rows[j])
      {
        assert ProjectRefs(s, s.projects.rows[j]);
      }
      forall j | j in s'.tasks.rows
        ensures TaskRefs(s', s'.tasks.rows[j])
      {
        if j != k {
          assert TaskRefs(s, s.tasks.rows[j]);
        }
      }
    }
  }

  /** `getAllTasksByProject(projectId)`: "Project not found" for an unknown project, otherwise
      every task whose project is that one, each as a DTO keyed by its id. List order is not
      modelled. */
  function GetAllTasksByProject(s: Store, projectId: int): (r: Result<map<int, TaskDto>>)
    ensures r.Err? <==> projectId !in s.projects.rows
    ensures r.Err? ==> r.error == ProjectNotFoundError(projectId)
    ensures r.Ok? ==> forall k :: k in r.value <==> k in s.tasks.rows && s.tasks.rows[k].project == Some(projectId)
    ensures r.Ok? ==> forall k :: k in r.value ==> r.value[k] == MapToDto(s.tasks.rows[k])
    ensures r.Ok? ==> forall k :: k in r.value ==> r.value[k].projectId == Some(projectId)
    ensures r.Ok? && Valid(s) ==> forall k :: k in r.value ==> r.value[k].id == Some(k)
  {
    if projectId !in s.projects.rows then Err(ProjectNotFoundError(projectId))
    else Ok(map k | k in s.tasks.rows && s.tasks.rows[k].project == Some(projectId) :: MapToDto(s.tasks.rows[k]))
  }

  /** A task just added is listed among its project's tasks, exactly as it was returned. */
  lemma AddedTaskIsListed(s: Store, projectId: int, dto: TaskDto)
    requires AddTaskToProject(s, projectId, dto).Ok?
    ensures var r := AddTaskToProject(s, projectId, dto);
            var listed := GetAllTasksByProject(r.value.0, projectId);
            listed.Ok? && r.value.1.id.value in listed.value && listed.value[r.value.1.id.value] == r.value.1
  {
    var r := AddTaskToProject(s, projectId, dto);
    var k := r.value.1.id.value;
    assert r.value.0.tasks.rows[k].project == MapToDto(r.value.0.tasks.rows[k]).projectId;
  }

  /** `assignUserToTask(taskId, userId)`: an unknown task fails before the user is looked
      up; an unknown user fails next; otherwise the assignee is overwritten, whoever it was,
      and the task saved. */
  function AssignUserToTask(s: Store, taskId: int, userId: int): (r: Result<(Store, TaskDto)>)
    ensures taskId !in s.tasks.rows ==> r == Err(TaskNotFoundError(taskId))
    ensures taskId in s.tasks.rows && userId !in s.users.rows ==> r == Err(UserNotFoundError(userId))
    ensures r.Ok? <==> taskId in s.tasks.rows && userId in s.users.rows
    ensures r.Ok? ==> r.value.1.userId == Some(userId)
    ensures r.Ok? ==> r.value.1 == MapToDto(s.tasks.rows[taskId]).(id := r.value.1.id, userId := Some(userId))
    ensures r.Ok? && Valid(s) ==> r.value.0 == s.(tasks := s.tasks.(rows := s.tasks.rows[taskId := s.tasks.rows[taskId].(user := Some(userId))]))
  {
    if taskId !in s.tasks.rows then Err(TaskNotFoundError(taskId))
    else if userId !in s.users.rows then Err(UserNotFoundError(userId))
    else
      var task := s.tasks.rows[taskId];
      var (s', saved) := SaveTask(s, task.(user := Some(userId)));
      Ok((s', MapToDto(saved)))
  }

  /** Assigning a task keeps the store valid. */
  lemma AssignUserToTaskKeepsValid(s: Store, taskId: int, userId: int)
    requires Valid(s)
    ensures AssignUserToTask(s, taskId, userId).Ok? ==> Valid(AssignUserToTask(s, taskId, userId).value.0)
  {
    var r := AssignUserToTask(s, taskId, userId);
    if r.Ok? {
      var s' := r.value.0;
      forall j | j in s'.projects.rows
        ensures ProjectRefs(s', s'.projects.rows[j])
      {
        assert ProjectRefs(s, s.projects.rows[j]);
      }
      forall j | j in s'.tasks.rows
        ensures TaskRefs(s', s'.tasks.rows[j])
      {
        assert TaskRefs(s, s.tasks.rows[j]);
      }
    }
  }

  /** Two assignments of one task in a row: the second overwrites the first, leaving the
      same store as the second alone would have. Assigning the same user again changes
      nothing. */
  lemma LastAssignmentWins(s: Store, taskId: int, first: int, second: int)
    requires Valid(s)
    requires AssignUserToTask(s, taskId, first).Ok? && second in s.users.rows
    ensures var s1 := AssignUserToTask(s, taskId, first).value.0;
            && AssignUserToTask(s1, taskId, second).Ok?
            && AssignUserToTask(s1, taskId, second).value.0 == AssignUserToTask(s, taskId, second).value.0
            && AssignUserToTask(s1, taskId, first).value.0 == s1
  {
    AssignUserToTaskKeepsValid(s, taskId, first);
    var s1 := AssignUserToTask(s, taskId, first).value.0;
    assert s1.tasks.rows[taskId].(user := Some(first)) == s1.tasks.rows[taskId];
    assert s1.tasks.rows[taskId := s1.tasks.rows[taskId]] == s1.tasks.rows;
  }

  /** `changeTaskState(taskId, newState)`: an unknown task fails first; a null name makes
      `valueOf` throw a NullPointerException, which is not caught; an unknown name becomes
      "Invalid state: <name>"; otherwise the state is set and the task saved. */
  function ChangeTaskState(s: Store, taskId: int, newState: Option<string>): (r: Result<(Store, TaskDto)>)
    ensures taskId !in s.tasks.rows ==> r == Err(TaskNotFoundError(taskId))
    ensures taskId in s.tasks.rows && newState.None? ==> r == Err(NullPointer)
    ensures taskId in s.tasks.rows && newState.Some? && ValueOf(newState.value).Err? ==> r == Err(Runtime("Invalid state: " + newState.value))
    ensures r.Ok? <==> taskId in s.tasks.rows && newState.Some? && ValueOf(newState.value).Ok?
    ensures r.Ok? ==> r.value.1.state == newState
    ensures r.Ok? ==> r.value.1 == MapToDto(s.tasks.rows[taskId]).(id := r.value.1.id, state := newState)
    ensures r.Ok? && Valid(s) ==> r.value.0 == s.(tasks := s.tasks.(rows := s.tasks.rows[taskId := s.tasks.rows[taskId].(state := Some(ValueOf(newState.value).value))]))
  {
    if taskId !in s.tasks.rows then Err(TaskNotFoundError(taskId))
    else if newState.None? then Err(NullPointer)
    else
      match ValueOf(newState.value)
      case Err(_) => Err(Runtime("Invalid state: " + newState.value))
      case Ok(state) =>
        var task := s.tasks.rows[taskId];
        var (s', saved) := SaveTask(s, task.(state := Some(state)));
        Ok((s', MapToDto(saved)))
  }

  /** Changing a state keeps the store valid, and setting the same state twice is the same
      as setting it once. */
  lemma ChangeTaskStateIdempotent(s: Store, taskId: int, newState: Option<string>)
    requires Valid(s)
    requires ChangeTaskState(s, taskId, newState).Ok?
    ensures var s1 := ChangeTaskState(s, taskId, newState).value.0;
            && Valid(s1)
            && ChangeTaskState(s1, taskId, newState).Ok?
            && ChangeTaskState(s1, taskId, newState).value.0 == s1
  {
    var s1 := ChangeTaskState(s, taskId, newState).value.0;
    forall j | j in s1.projects.rows
      ensures ProjectRefs(s1, s1.projects.rows[j])
    {
      assert ProjectRefs(s, s.projects.rows[j]);
    }
    forall j | j in s1.tasks.rows
      ensures TaskRefs(s1, s1.tasks.rows[j])
    {
      assert TaskRefs(s, s.tasks.rows[j]);
    }
    assert s1.tasks.rows[taskId := s1.tasks.rows[taskId]] == s1.tasks.rows;
  }

  /** A state change read back through the DTO shows the state asked for; changing it and
      changing it back restores the task row. */
  lemma ChangeTaskStateRoundTrip(s: Store, taskId: int, newState: string)
    requires Valid(s)
    requires taskId in s.tasks.rows && s.tasks.rows[taskId].state.Some?
    requires ValueOf(newState).Ok?
    ensures var back := Some(Name(s.tasks.rows[taskId].state.value));
            var s1 := ChangeTaskState(s, taskId, Some(newState)).value.0;
            && ChangeTaskState(s, taskId, Some(newState)).Ok?
            && ChangeTaskState(s1, taskId, back).Ok?
            && ChangeTaskState(s1, taskId, back).value.0 == s
  {
    var previous := s.tasks.rows[taskId].state.value;
    ValueOfName(previous);
    ChangeTaskStateIdempotent(s, taskId, Some(newState));
    var s1 := ChangeTaskState(s, taskId, Some(newState)).value.0;
    assert s1.tasks.rows[taskId].(state := Some(previous)) == s.tasks.rows[taskId];
    assert s.tasks.rows[taskId := s.tasks.rows[taskId]] == s.tasks.rows;
  }
}

=== FILE: tasks.dfy ===
/** The `Task` entity and its `StateTask` enumeration. */
module Tasks {
  import opened Java

  /** `Task.StateTask`: the three states a task can be in. */
  datatype StateTask = ToDo | InProgress | Done

  /** `StateTask.name()`: the constant's declared name. */
  function Name(st: StateTask): string {
    match st
    case ToDo => "TO_DO"
    case InProgress => "IN_PROGRESS"
    case Done => "DONE"
  }

  /** `StateTask.valueOf(name)`: the constant whose name is exactly `name` (case-sensitive),
      otherwise an IllegalArgumentException naming the enum and the rejected string. */
  function ValueOf(name: string): (r: Result<StateTask>)
    ensures r.Ok? ==> Name(r.value) == name
    ensures r.Err? ==> forall st :: Name(st) != name
    ensures r.Err? ==> r.error == IllegalArgument("No enum constant com.example.project.Entity.Task.StateTask." + name)
  {
    if name == "TO_DO" then Ok(ToDo)
    else if name == "IN_PROGRESS" then Ok(InProgress)
    else if name == "DONE" then Ok(Done)
    else Err(IllegalArgument("No enum constant com.example.project.Entity.Task.StateTask." + name))
  }

  /** Every state name parses back to its state, so distinct states have distinct names. */
  lemma ValueOfName(st: StateTask)
    ensures ValueOf(Name(st)) == Ok(st)
  {
  }

  /** A task row. Every field but the project is nullable; the project is the owning
      side of the project/task association, held here by the project's id. */
  datatype Task = Task(
    id: Option<int>,
    description: Option<string>,
    dueDate: Option<Date>,
    state: Option<StateTask>,
    user: Option<int>,
    project: Option<int>)
}

=== FILE: user_service.dfy ===
/** `UserService`: registration, login, and the two user lookups. Password hashing is an
    opaque encoder; token issuance goes through the opaque `Codec`. */
module UserService {
  import opened Java
  import Decimal
  import opened Users
  import opened Repositories
  import opened Jwt

  /** The BCrypt encoder: `encode(raw)` and `matches(raw, encoded)` on non-null strings. */
  datatype PasswordEncoder = PasswordEncoder(encode: string -> string, matches: (string, string) -> bool)

  /** What BCrypt's `encode` throws on a null raw password. */
  const NullPasswordMessage: string := "rawPassword cannot be null"

  /** BCrypt's `matches(raw, encoded)` with a possibly null stored hash: a null hash never
      matches. */
  predicate Matches(enc: PasswordEncoder, raw: string, encoded: Option<string>) {
    encoded.Some? && enc.matches(raw, encoded.value)
  }

  /** The single element of a one-element set. */
  function Single(ids: set<int>): (k: int)
    requires |ids| == 1
    ensures ids == {k}
  {
    SingletonShape(ids);
    NonEmptyHasElement(ids);
    var k :| k in ids;
    assert forall x | x in ids :: x == k;
    k
  }

  lemma SingletonShape(ids: set<int>)
    requires |ids| == 1
    ensures forall a, b :: a in ids && b in ids ==> a == b
  {
    NonEmptyHasElement(ids);
    var k :| k in ids;
    assert |ids - {k}| == 0;
    assert ids - {k} == {};
    assert ids == {k};
  }

  /** The ids of the users whose email column equals `email`. */
  function WithEmail(s: Store, email: string): set<int> {
    set k | k in s.users.rows && s.users.rows[k].email == Some(email)
  }

  /** `saveUser(user)`: stores the user with its password replaced by `encode` of the
      password it arrived with; every other field is kept (the id is filled in when null).
      A null password makes `encode` throw before anything is written; otherwise the row is
      refused exactly when the repository refuses it. Registering over an existing id
      deletes the projects that user had created (see `Repositories.SaveUser`). */
  function SaveUser(s: Store, enc: PasswordEncoder, user: User): (r: Result<(Store, User)>)
    ensures user.password.None? ==> r == Err(IllegalArgument(NullPasswordMessage))
    ensures user.password.Some? ==>
              (r.Err? <==> user.username.None? || user.email.None?
                           || exists j :: j in s.users.rows && j != KeyFor(s.users, user.id)
                                          && (s.users.rows[j].email == user.email || s.users.rows[j].username == user.username))
    ensures r.Err? && user.password.Some? ==> r.error == DataIntegrityViolation
    ensures r.Ok? ==> user.password.Some? && r.value.1 == user.(id := r.value.1.id, password := Some(enc.encode(user.password.value)))
    ensures r.Ok? ==> r.value.1.id.Some? && r.value.1.id.value in r.value.0.users.rows
    ensures r.Ok? ==> r.value.0.users.rows[r.value.1.id.value] == r.value.1
    ensures r.Ok? && user.id.Some? ==> r.value.1.id == user.id
    ensures r.Ok? && r.value.1.id.value !in s.users.rows ==> r.value.0.projects == s.projects && r.value.0.tasks == s.tasks
    ensures r.Ok? && r.value.1.id.value in s.users.rows ==>
              forall j :: j in r.value.0.projects.rows <==> j in s.projects.rows && s.projects.rows[j].creator != r.value.1.id.value
    ensures r.Ok? ==> r.value.0.users.rows == s.users.rows[r.value.1.id.value := r.value.1]
    ensures r.Ok? && r.value.1.id.value in s.users.rows ==>
              r.value.0.projects == DropCreated(s, r.value.1.id.value).projects
              && r.value.0.tasks == DropCreated(s, r.value.1.id.value).tasks
  {
    if user.password.None? then Err(IllegalArgument(NullPasswordMessage))
    else Repositories.SaveUser(s, user.(password := Some(enc.encode(user.password.value))))
  }

  /** Registration then login: once a user is saved, logging in with its email and the raw
      password it registered with yields the token for its new id, provided the encoder
      recognises its own hash. */
  lemma RegisterThenLogin(s: Store, enc: PasswordEncoder, codec: Codec, user: User)
    requires Valid(s)
    requires user.password.Some? && user.email.Some?
    requires enc.matches(user.password.value, enc.encode(user.password.value))
    requires SaveUser(s, enc, user).Ok?
    ensures var r := SaveUser(s, enc, user);
            && FindById(r.value.0, r.value.1.id.value) == Ok(r.value.1)
            && Authenticate(r.value.0, enc, codec, user.email.value, user.password.value)
                 == Ok(GenerateToken(codec, r.value.1.id))
  {
    var r := SaveUser(s, enc, user);
    var s' := r.value.0;
    var k := r.value.1.id.value;
    SaveUserKeepsValid(s, user.(password := Some(enc.encode(user.password.value))));
    var found := WithEmail(s', user.email.value);
    forall j | j in found
      ensures j == k
    {
      assert s'.users.rows[j].email == s'.users.rows[k].email;
    }
    assert found == {k};
    assert Single(found) == k;
  }

  /** `authenticate(email, password)`: an unknown email fails before any password check, a
      password that does not match fails without a token, and otherwise the result is the
      token issued for the user's id. */
  function Authenticate(s: Store, enc: PasswordEncoder, codec: Codec, email: string, password: string): (r: Result<string>)
    ensures WithEmail(s, email) == {} ==> r == Err(IllegalArgument("Utilisateur non trouvé"))
    ensures r.Ok? ==> exists k :: k in s.users.rows && s.users.rows[k].email == Some(email)
                                 && Matches(enc, password, s.users.rows[k].password)
                                 && r.value == GenerateToken(codec, s.users.rows[k].id)
    ensures forall k :: k in s.users.rows && WithEmail(s, email) == {k} ==>
              (Matches(enc, password, s.users.rows[k].password) <==> r.Ok?)
    ensures forall k :: k in s.users.rows && WithEmail(s, email) == {k} && !Matches(enc, password, s.users.rows[k].password) ==>
              r == Err(IllegalArgument("Mot de passe incorrect"))
  {
    var found := WithEmail(s, email);
    if |found| == 0 then Err(IllegalArgument("Utilisateur non trouvé"))
    else if |found| > 1 then Err(IncorrectResultSize)
    else
      var k := Single(found);
      var user := s.users.rows[k];
      if Matches(enc, password, user.password) then Ok(GenerateToken(codec, user.id))
      else Err(IllegalArgument("Mot de passe incorrect"))
  }

  /** In a valid store an email matches at most one user, so login never hits the
      several-rows failure of `findByEmail`. */
  lemma AuthenticateNeverAmbiguous(s: Store, enc: PasswordEncoder, codec: Codec, email: string, password: string)
    requires Valid(s)
    ensures Authenticate(s, enc, codec, email, password) != Err(IncorrectResultSize)
  {
    var found := WithEmail(s, email);
    if found != {} {
      NonEmptyHasElement(found);
      var a :| a in found;
      forall b | b in found
        ensures b == a
      {
        assert s.users.rows[b].email == s.users.rows[a].email;
      }
      assert found <= {a};
      SubsetCardinality(found, {a});
    }
  }

  /** `findById(id)`: the stored user, or a RuntimeException whose message names the id. */
  function FindById(s: Store, id: int): (r: Result<User>)
    ensures id in s.users.rows <==> r.Ok?
    ensures r.Ok? ==> r.value == s.users.rows[id]
    ensures r.Err? ==> r.error.Runtime? && Contains(r.error.message, Decimal.ToString(id))
  {
    if id in s.users.rows then Ok(s.users.rows[id])
    else
      ContainsMiddle("Utilisateur avec l'ID ", Decimal.ToString(id), " non trouvé");
      Err(Runtime("Utilisateur avec l'ID " + Decimal.ToString(id) + " non trouvé"))
  }

  /** `getUsersByIds(ids)` (`findAllById`): each stored user whose id is listed, once;
      ids with no user are skipped. Result order is not modelled. */
  function GetUsersByIds(s: Store, ids: seq<int>): (r: map<int, User>)
    ensures forall k :: k in r <==> k in ids && k in s.users.rows
    ensures forall k :: k in r ==> r[k] == s.users.rows[k]
  {
    map k | k in s.users.rows && k in ids :: s.users.rows[k]
  }

  /** The lookup never returns more users than ids were asked for. */
  lemma {:induction false} UsersByIdsBounded(s: Store, ids: seq<int>)
    ensures |GetUsersByIds(s, ids)| <= |ids|
  {
    var r := GetUsersByIds(s, ids);
    DistinctBound(ids);
    SubsetCardinality(r.Keys, set k | k in ids);
  }

  lemma {:induction false} SubsetCardinality(a: set<int>, b: set<int>)
    requires a <= b
    ensures |a| <= |b|
  {
    if a != {} {
      NonEmptyHasElement(a);
      var x :| x in a;
      SubsetCardinality(a - {x}, b - {x});
    }
  }

  lemma {:induction false} DistinctBound(ids: seq<int>)
    ensures |set k | k in ids| <= |ids|
  {
    if |ids| > 0 {
      DistinctBound(ids[1..]);
      assert (set k | k in ids) == (set k | k in ids[1..]) + {ids[0]};
    }
  }
}

=== FILE: users.dfy ===
/** The `User` entity and the `UserDTO` view of it. */
module Users {
  import opened Java

  datatype Role = Admin | Member

  /** A user row. `id` is null until the repository assigns one. Username, email and
      password may be null in an entity (a registration body can omit any of them), but
      the three columns are declared non-null, and username and email are unique. */
  datatype User = User(
    id: Option<int>,
    username: Option<string>,
    email: Option<string>,
    password: Option<string>,
    role: Option<Role>)

  /** The public view of a user: id, username and email, never the password. */
  datatype UserDto = UserDto(id: Option<int>, username: Option<string>, email: Option<string>)

  function ToDto(u: User): (d: UserDto)
    ensures d.id == u.id && d.username == u.username && d.email == u.email
  {
    UserDto(u.id, u.username, u.email)
  }
}
